=== FILE: README.md ===
# Room session mirror

This project models the session object of the LiveKit real-time Python SDK: the `Room` class in
`livekit-rtc/livekit/rtc/room.py`. A `Room` keeps a local mirror of a media session. The native
engine owns the session and sends tagged room events over a shared delivery channel. The room's
listening task takes each event addressed to its own handle and updates the mirror: remote
participants keyed by identity, their track publications keyed by sid, the room info and the
connection state. It then emits at most one named notification to the application: room_sid_changed,
a track_subscribed of an unknown kind, a data packet without a payload and a message kind the
dispatch has no branch for emit none. Every envelope taken off the channel, except this room's
end-of-stream, is passed on to a secondary queue, including those addressed to other rooms.

The model has two layers.

- **A pure layer.**
  - `Entities`, `Events` and `Registry` give the values, the event and notification kinds, and the
    participant lookups.
  - `Dispatch.Apply` is one room event applied to the mirror. It gives the next mirror and the
    notification, or the fault the event raises. Every fault in the dispatch is raised before
    anything is mutated, so a failing event changes nothing.
  - `DispatchLoop.Run` is the listening task's policy over a finite stream of envelopes.
  - `Roster.ReplayRoster` is the initial roster replay of `connect`.
  - `DispatchProperties` holds the properties that relate several events.
- **An imperative layer.** `Session.Room` is a class with the fields the Python object updates in
  place.
  - The notification log `emitted` stands for `emit`.
  - `republished` stands for the secondary queue.
  - `faults` stands for the logged exceptions.
  - Its methods (`ApplyEvent`, `Connect`, `Listen`, `Disconnect` and the lookups) are proved
    against the pure layer.

Notifications carry the state of the objects at the moment they are emitted. Emission is
synchronous, so that state is the state after the event.

Behaviours the model pins down:

- A participant_connected for an identity that is already registered raises, and nothing changes.
- A participant_disconnected removes exactly that identity and emits the removed participant.
- The local-or-remote lookup only answers with the local participant for a non-empty identity equal
  to its own.
- A track_subscribed whose track kind is neither audio nor video marks the publication subscribed.
  It attaches no track and emits nothing.
- Setting the first-subscription future of a local publication a second time raises.
- room_sid_changed resolves the first-sid future only when the stored sid is empty.
  - A second room_sid_changed does not re-resolve the future while the stored sid is non-empty.
  - If an earlier event stored the empty sid, the future is already resolved. A second event then
    raises (the future's `set_result` fails) and the sid stays empty.
  - The model follows the code (`Dispatch.OnRoomSidChanged`).
- participant_attributes_changed replaces the stored attributes by the event's full map. The
  notification carries only the changed subset.
- connect can fail while it replays the roster, on an identity listed twice or already registered.
  The room is then left connected, with its handle set, and no new listening task is started.
  - If no earlier connect started a task, the room has none, and disconnect raises because it
    awaits the missing task. The model shows this as `Connect` returning the fault with
    `taskStarted` false, and `Disconnect` returning `NoTask`.
  - If an earlier connect started a task, that task is still the room's task, and disconnect
    awaits it without raising. The model keeps `taskStarted` and `taskDone` from before, and
    `Disconnect` runs that task.

## Model

| member | source | states |
|---|---|---|
| Registry.RetrieveRemoteParticipant | livekit-rtc/livekit/rtc/room.py:511-515 | found exactly when the identity is registered, and then it is that entry |
| Registry.RetrieveParticipant | livekit-rtc/livekit/rtc/room.py:517-522 | the local participant for a non-empty identity equal to its own, otherwise the remote lookup; nothing found exactly when neither matches |
| Registry.RetrieveParticipantSound | livekit-rtc/livekit/rtc/room.py:517-522 | under the keyed-by-identity invariant, a found participant carries the identity asked for, and a miss means no remote carries it |
| Registry.CreateRemote | livekit-rtc/livekit/rtc/room.py:524-532 | raises exactly on an identity already present; otherwise adds exactly that key, holding a fresh participant with no publications, and keeps every other entry |
| Registry.RemoveRemote | livekit-rtc/livekit/rtc/room.py:275-278 | raises exactly on an absent identity; otherwise removes exactly that key and returns the removed participant |
| Entities.TrackFor | livekit-rtc/livekit/rtc/room.py:308-327 | a video track for the video kind, an audio track for the audio kind, none for any other kind, carrying the event's track info |
| Entities.SetMuted | livekit-rtc/livekit/rtc/room.py:348-369 | sets the mute flag of the publication and of its attached track, if any, and changes nothing else |
| Dispatch.OnParticipantConnected | livekit-rtc/livekit/rtc/room.py:270-274 | raises exactly on a duplicate identity; otherwise only the registry changes, gaining exactly the new identity, and the new participant is emitted |
| Dispatch.OnParticipantDisconnected | livekit-rtc/livekit/rtc/room.py:275-278 | raises exactly on an unknown identity; otherwise exactly that key goes and the removed participant is emitted |
| Dispatch.OnLocalTrackSubscribed | livekit-rtc/livekit/rtc/room.py:288-292 | raises on an unknown sid or an already-resolved first-subscription future; otherwise resolves that future only and emits the publication's track |
| Dispatch.OnTrackPublished | livekit-rtc/livekit/rtc/room.py:293-299 | raises exactly on an unknown participant; otherwise adds or replaces the publication under its sid on that participant only, and emits it with the updated participant |
| Dispatch.OnTrackUnpublished | livekit-rtc/livekit/rtc/room.py:300-307 | raises on an unknown participant or sid; otherwise removes exactly that publication and emits it |
| Dispatch.OnTrackSubscribed | livekit-rtc/livekit/rtc/room.py:308-327 | raises on an unknown participant or sid; otherwise marks the publication subscribed and attaches a track by kind; emits exactly when the kind is audio or video; nothing else changes |
| Dispatch.OnTrackUnsubscribed | livekit-rtc/livekit/rtc/room.py:328-337 | raises on an unknown participant or sid; otherwise clears the track and the subscribed flag and emits the track that was attached |
| Dispatch.OnTrackMuteChanged | livekit-rtc/livekit/rtc/room.py:348-369 | raises exactly when the participant is not found or has no such publication; otherwise only that participant changes, in that publication's mute flags, and it is emitted |
| Dispatch.ResolveSpeakers | livekit-rtc/livekit/rtc/room.py:370-378 | succeeds exactly when every identity resolves, giving the participants in the given order; otherwise fails on the first identity that does not resolve |
| Dispatch.OnRoomSidChanged | livekit-rtc/livekit/rtc/room.py:383-387 | raises exactly when the stored sid is empty and the future is already resolved; otherwise overwrites the sid, resolves the future only if the stored sid was empty, and emits nothing |
| Dispatch.OnParticipantMetadataChanged | livekit-rtc/livekit/rtc/room.py:388-400 | raises exactly when the participant is not found; otherwise only its metadata changes, and the old and new values are emitted |
| Dispatch.OnParticipantNameChanged | livekit-rtc/livekit/rtc/room.py:401-409 | raises exactly when the participant is not found; otherwise only its name changes, and the old and new values are emitted |
| Dispatch.OnParticipantAttributesChanged | livekit-rtc/livekit/rtc/room.py:410-424 | the stored attributes become exactly the event's full map and nothing else of the participant changes; the notification carries the changed subset |
| Dispatch.OnTranscription | livekit-rtc/livekit/rtc/room.py:434-451 | the note carries the event's segments and the local-or-remote lookup of the identity; it names a publication exactly when that lookup found a participant holding the track sid, and then it is that participant's publication |
| Dispatch.OnDataPacket | livekit-rtc/livekit/rtc/room.py:452-490 | a user packet gives a data note with the event's bytes, kind and topic, a DTMF payload a tone note with its code and digit, and no payload no note; the sender is found exactly when a remote participant has the identity, never the local one |
| Dispatch.Apply | livekit-rtc/livekit/rtc/room.py:268-509 | the dispatch itself: one event gives the next mirror and its notification, or the fault it raises with nothing changed; each kind's effect, its notification's arguments included, is stated by its On* function and by DispatchProperties.RoomMetadataEvent, ConnectionStateOnlyByItsEvent, ReportEvents and NotifyOnlyEvents, and for a message kind without a branch by DispatchProperties.ApplyFrame |
| Dispatch.RoomState.IsConnected | livekit-rtc/livekit/rtc/room.py:146-150 | connected exactly when a native handle exists and the connection state is not disconnected; how events move it is stated by DispatchProperties.ConnectionStateOnlyByItsEvent |
| Dispatch.RoomState.Sid | livekit-rtc/livekit/rtc/room.py:127-132 | the stored sid when it is non-empty, otherwise the first-sid future's value, with None for a caller still waiting; DispatchProperties.SidChangedTwice and FirstSidResolvedOnce state how it evolves |
| DispatchProperties.RemoteKeysFollowEvent | livekit-rtc/livekit/rtc/room.py:270-278 | only participant_connected adds, and only participant_disconnected removes, registered identities, each exactly its own |
| DispatchProperties.ApplyFrame | livekit-rtc/livekit/rtc/room.py:268-509 | no event changes the handle; only connection_state_changed changes the connection state; only room_sid_changed touches the first-sid future; a message kind the dispatch has no branch for changes nothing and emits nothing |
| DispatchProperties.ApplyPreservesValid | livekit-rtc/livekit/rtc/room.py:268-509 | every event keeps participants stored under their identities and publications under their sids |
| DispatchProperties.ConnectionStateOnlyByItsEvent | livekit-rtc/livekit/rtc/room.py:498-501 | whether the room is connected changes only on connection_state_changed; that event never raises, stores the new state and nothing else, emits it, and leaves the room connected exactly when it has a handle and the new state is not disconnected |
| DispatchProperties.RoomMetadataEvent | livekit-rtc/livekit/rtc/room.py:379-382 | room_metadata_changed never raises, replaces the room metadata and nothing else, and emits the old and the new metadata |
| DispatchProperties.ReportEvents | livekit-rtc/livekit/rtc/room.py:425-497 | quality, transcription, data and E2EE reports never raise and never change the mirror; quality and E2EE notes carry the local-or-remote lookup of the identity, which may be empty; a data packet's note is exactly what OnDataPacket gives, and none only for a packet with no payload |
| DispatchProperties.FirstSidResolvedOnce | livekit-rtc/livekit/rtc/room.py:383-387 | a resolved first-sid future never changes again; it only becomes resolved by room_sid_changed on an empty stored sid, with that event's sid |
| DispatchProperties.SidChangedTwice | livekit-rtc/livekit/rtc/room.py:127-132 | after a first non-empty sid, the sid getter answers it; a second change overwrites the stored sid and keeps the resolved future |
| DispatchProperties.SubscribeThenUnsubscribe | livekit-rtc/livekit/rtc/room.py:308-337 | subscribing then unsubscribing leaves the publication unsubscribed and trackless, and the unsubscribe notification carries the track the subscription attached |
| DispatchProperties.MuteIdempotent | livekit-rtc/livekit/rtc/room.py:348-369 | applying the same mute or unmute event twice gives the same mirror and emits the same notification both times |
| DispatchProperties.NotifyOnlyEvents | livekit-rtc/livekit/rtc/room.py:279-509 | the branches at 279-287, 338-347, 370-378, 425-497 and 502-509 only notify: they never change the mirror; they raise exactly when a required lookup misses, and the lookups that tolerate a miss never raise; each note is given with its arguments: the local publication and its track, the remote participant with the track sid and error, the speakers Dispatch.ResolveSpeakers finds (or its fault), and the lifecycle notes with the disconnect reason |
| DispatchProperties.AttributesExample | livekit-rtc/livekit/rtc/room.py:410-424 | with full map {a:1, b:2} and changed {b:2}, the stored attributes are the full map and the notification carries {b:2} |
| DispatchLoop.Feed | livekit-rtc/livekit/rtc/room.py:249-266 | one envelope: this room's end-of-stream stops the loop; any other envelope for this room is applied, a raising one logged; every envelope except the stopping one is passed on; its properties are stated by EosStops, ForeignEventsIgnored and FailingEventContinues |
| DispatchLoop.Run | livekit-rtc/livekit/rtc/room.py:246-266 | the listening task over a stream of envelopes, in order, until end-of-stream; its properties are stated by RunFinished, RunAppend, RunRegisteredIdentities and RunPreservesValid |
| DispatchLoop.RunFinished | livekit-rtc/livekit/rtc/room.py:248-252 | once the loop has broken out, further envelopes change nothing |
| DispatchLoop.RunAppend | livekit-rtc/livekit/rtc/room.py:246-266 | envelopes are processed strictly in order: running over a + b is running over a, then over b |
| DispatchLoop.EosStops | livekit-rtc/livekit/rtc/room.py:249-252 | this room's end-of-stream ends the loop without changing the mirror or the logs, and nothing after it is applied |
| DispatchLoop.ForeignEventsIgnored | livekit-rtc/livekit/rtc/room.py:249-266 | envelopes for another room handle leave the mirror, notifications and faults alone and are only passed on |
| DispatchLoop.FailingEventContinues | livekit-rtc/livekit/rtc/room.py:254-266 | an event that raises is logged and passed on, and the loop continues from an unchanged mirror |
| DispatchLoop.RunRegisteredIdentities | livekit-rtc/livekit/rtc/room.py:246-278 | the registered identities after any stream are those the stream's connect and disconnect events give, whether they succeed or raise |
| DispatchLoop.RunPreservesValid | livekit-rtc/livekit/rtc/room.py:246-266 | the loop keeps the registry invariant and never changes the handle |
| Roster.WithPublications | livekit-rtc/livekit/rtc/room.py:219-222 | the roster publications added in order under their sids; its properties are stated by the WithPublications lemmas below |
| Roster.Register | livekit-rtc/livekit/rtc/room.py:217-222 | one roster participant, created fresh and given its publications, stored under its identity |
| Roster.ReplayRoster | livekit-rtc/livekit/rtc/room.py:216-222 | the roster replay, stopping at the first identity already present; its properties are stated by the ReplayRoster lemmas below |
| Roster.WithPublicationsKeepsInfo | livekit-rtc/livekit/rtc/room.py:218-221 | adding the roster publications keeps the participant's info |
| Roster.WithPublicationsKeys | livekit-rtc/livekit/rtc/room.py:218-221 | the sids present afterwards are the earlier ones plus the listed ones |
| Roster.WithPublicationsFresh | livekit-rtc/livekit/rtc/room.py:218-221 | every listed sid holds a fresh, unsubscribed, trackless publication stored under its own sid; it is exactly the publication built from the last listed entry with that sid, with that entry's name, kind and mute flag |
| Roster.WithPublicationsKeepsOthers | livekit-rtc/livekit/rtc/room.py:218-221 | a publication whose sid is not listed is kept unchanged |
| Roster.WithPublicationsKeyed | livekit-rtc/livekit/rtc/room.py:218-221 | publications stay keyed by their sids |
| Roster.ReplayRosterCompletes | livekit-rtc/livekit/rtc/room.py:216-222 | the replay completes exactly when the listed identities are pairwise distinct and not yet registered; otherwise it fails on one of the listed identities |
| Roster.ReplayRosterRegisters | livekit-rtc/livekit/rtc/room.py:216-222 | a completed replay registers exactly the listed identities and keeps every earlier entry |
| Roster.ReplayRosterInfos | livekit-rtc/livekit/rtc/room.py:216-222 | a completed replay stores each listed participant with its own info |
| Roster.ReplayRosterPublications | livekit-rtc/livekit/rtc/room.py:216-222 | a completed replay stores each listed participant as a fresh participant given exactly its entry's publications, so its sids are exactly the listed ones |
| Roster.ReplayRosterKeepsKeyed | livekit-rtc/livekit/rtc/room.py:216-222 | the replay keeps the registry invariant whether or not it completes |
| Roster.ReplayRosterSummary | livekit-rtc/livekit/rtc/room.py:216-222 | completes exactly on fresh, distinct identities, then registers exactly them, and keeps the invariant either way |
| Session.Room.constructor | livekit-rtc/livekit/rtc/room.py:111-121 | no handle, empty info, no remotes, disconnected, unresolved sid future, empty logs, no task |
| Session.Room.CreateRemoteParticipant | livekit-rtc/livekit/rtc/room.py:524-532 | the registry moves as CreateRemote says, and the new participant is returned |
| Session.Room.Notify | livekit-rtc/livekit/rtc/room.py:274 | each emit appends exactly its notification to the log and changes nothing else |
| Session.Room.StoreParticipant | livekit-rtc/livekit/rtc/room.py:394 | writing to a participant the local-or-remote lookup found changes the mirror exactly as RoomState.Store says: that participant only |
| Session.Room.ResolveSpeakers | livekit-rtc/livekit/rtc/room.py:370-378 | the lookup loop gives exactly Dispatch.ResolveSpeakers |
| Session.Room.OnMembership | livekit-rtc/livekit/rtc/room.py:270-278 | mirror and log move as Dispatch.Apply says; a failure changes nothing |
| Session.Room.OnLocalTrack | livekit-rtc/livekit/rtc/room.py:279-292 | mirror and log move as Dispatch.Apply says; a failure changes nothing |
| Session.Room.OnRemotePublication | livekit-rtc/livekit/rtc/room.py:293-307 | mirror and log move as Dispatch.Apply says; a failure changes nothing |
| Session.Room.OnSubscription | livekit-rtc/livekit/rtc/room.py:308-337 | mirror and log move as Dispatch.Apply says; a failure changes nothing |
| Session.Room.OnParticipantNotice | livekit-rtc/livekit/rtc/room.py:338-347 | for track_subscription_failed and for active_speakers_changed (370-378), mirror and log move as Dispatch.Apply says; a failure changes nothing |
| Session.Room.OnMute | livekit-rtc/livekit/rtc/room.py:348-369 | mirror and log move as Dispatch.Apply says; a failure changes nothing |
| Session.Room.OnRoomInfo | livekit-rtc/livekit/rtc/room.py:379-387 | mirror and log move as Dispatch.Apply says; a failure changes nothing |
| Session.Room.OnParticipantInfo | livekit-rtc/livekit/rtc/room.py:388-424 | mirror and log move as Dispatch.Apply says; a failure changes nothing |
| Session.Room.OnParticipantReport | livekit-rtc/livekit/rtc/room.py:425-497 | mirror and log move as Dispatch.Apply says, with participant and publication lookups that may find nothing and never raise |
| Session.Room.OnConnectionState | livekit-rtc/livekit/rtc/room.py:498-501 | mirror and log move as Dispatch.Apply says |
| Session.Room.OnLifecycle | livekit-rtc/livekit/rtc/room.py:502-509 | mirror and log move as Dispatch.Apply says |
| Session.Room.ApplyEvent | livekit-rtc/livekit/rtc/room.py:268-509 | the mirror and the notification log move exactly as Dispatch.Apply says; a raising event leaves both untouched; handle, queue, fault log and task are unchanged |
| Session.Room.FillPublications | livekit-rtc/livekit/rtc/room.py:218-221 | the publication loop gives exactly Roster.WithPublications |
| Session.Room.AddRoster | livekit-rtc/livekit/rtc/room.py:216-222 | the roster loop's registry and fault are exactly Roster.ReplayRoster |
| Session.Room.Connect | livekit-rtc/livekit/rtc/room.py:152-225 | a refused connection raises ConnectError and changes nothing; otherwise sets handle, info, connected state and local participant, replays the roster, and starts a fresh, unfinished task exactly when the replay completes |
| Session.Room.Listen | livekit-rtc/livekit/rtc/room.py:246-266 | the mirror and all three logs end as DispatchLoop.Run says; the handle and the invariant are kept |
| Session.Room.Disconnect | livekit-rtc/livekit/rtc/room.py:227-244 | returns at once when not connected; raises when no task was started; otherwise runs the task over the remaining envelopes and reports whether it ended |

## Left out

- Futures and awaiting. The `sid` getter's await on the first-sid future is a `None` result
  (`RoomState.Sid`), meaning the caller is still blocked. The first-subscription future of a local
  publication is a flag.
- The secondary broadcast queue's back-pressure (`put_nowait` followed by `join`) is not modelled.
  The queue is the `republished` log; waiting for subscribers has no effect on the mirror.
- Listener fan-out. `emit` appends to the notification log. Exceptions raised by application
  listeners are not modelled. In the source they travel through the dispatch and are logged by the
  loop, like a dispatch fault.
- Native requests and the delivery channel are not modelled: the FFI request/response exchange of
  connect and disconnect, the subscription to the shared channel, `FfiHandle` lifetimes, the
  ctypes copy of user data buffers, `E2EEManager` and `__del__`. The connect response and the
  stream of delivered envelopes are parameters instead.
- Connect options marshalling (`RoomOptions`, `RtcConfiguration`, E2EE options) is not modelled,
  because none of it affects the mirror.
- Object identity and aliasing are not modelled. The Python objects are shared references. Here
  entities are values, and each notification holds a snapshot taken when it is emitted.
- The start and end times of transcription segments are not modelled, because they are floating
  point.
- Connection quality, E2EE state and disconnect reason are enum values carried as natural numbers.
- The protobuf definitions are not part of this model. The connection states used are
  disconnected, connected and reconnecting.
- The local participant's own publish and unpublish operations are in `participant.py`, which is
  not part of this model. The local publications are an input to the model, and only
  local_track_subscribed and the track_muted and track_unmuted events change them here.
- Before connect, the source has no `local_participant` attribute at all. The model holds an empty
  placeholder. The listening task cannot run before connect, so no event sees it.
- `assert isinstance(...)` on a participant lookup is modelled as raising. Run with assertions
  disabled, the source would instead fail later on the missing participant, or, for active
  speakers, put `None` in the list.
- Two listening tasks at once are not modelled. A second successful connect on the same room
  starts a fresh task, and the model's task flags describe that one. In the source the earlier
  task, if it has not ended, keeps reading the same channel with the new handle.
- The `name`, `metadata` and `e2ee_manager` getters only read fields, and are not separate
  members.
- Session.Room.Connect: its contract ties the new registry to `Roster.ReplayRoster`. The facts that
  the replay completes exactly on fresh, distinct identities and keeps the registry invariant are
  stated by `Roster.ReplayRosterSummary`, not repeated in the method's own contract.

=== FILE: dispatch.dfy ===
/** The per-event state machine of the session mirror, as a function from
    the mirror and one room event to the next mirror and the notification
    emitted, or to the fault the event raises. Every fault is raised
    before anything is changed, so a failing event changes nothing. */
module Dispatch {
  import opened Wrappers
  import opened Entities
  import opened Events
  import opened Registry

  /** The mirrored session: the native handle (None before connect), the
      room info, the local participant, the remote participants keyed by
      identity, the connection state and the first-sid future (None while
      unresolved). */
  datatype RoomState = RoomState(
    handle: Option<nat>,
    info: RoomInfo,
    local: Participant,
    remotes: map<string, Participant>,
    connectionState: ConnectionState,
    firstSid: Option<string>)
  {
    /** Connected: a native handle exists and the engine does not report
        the session as disconnected. */
    predicate IsConnected() {
      handle.Some? && connectionState != ConnDisconnected
    }

    /** The sid getter: the stored sid when it is non-empty, otherwise the
        value of the first-sid future; None means a caller awaiting it is
        still blocked. */
    function Sid(): Option<string> {
      if info.sid != "" then Some(info.sid) else firstSid
    }

    /** Local-or-remote participant lookup. */
    function Resolve(identity: string): Option<Participant> {
      RetrieveParticipant(local, remotes, identity)
    }

    /** Writes back a participant that Resolve(identity) found. */
    function Store(identity: string, p: Participant): RoomState {
      if IsLocalIdentity(local, identity) then this.(local := p)
      else this.(remotes := remotes[identity := p])
    }

    /** The registry invariant: every entry is stored under its own key. */
    ghost predicate Valid() {
      KeyedBySid(local.publications) && KeyedByIdentity(remotes)
    }
  }

  /** What one successfully applied event produces. */
  datatype Step = Step(next: RoomState, note: Option<Notification>)

  function Emit(s: RoomState, n: Notification): Result<Step, Fault> {
    Success(Step(s, Some(n)))
  }

  /** `n` differs from `s` in the remote participant `identity` at most. */
  ghost predicate OnlyRemoteChanged(s: RoomState, n: RoomState, identity: string) {
    && n == s.(remotes := n.remotes)
    && n.remotes.Keys == s.remotes.Keys
    && forall id :: id in s.remotes && id != identity ==> n.remotes[id] == s.remotes[id]
  }

  /** `n` differs from `s` at most in the participant that
      Resolve(identity) finds: the local one or a remote one. */
  ghost predicate OnlyResolvedChanged(s: RoomState, n: RoomState, identity: string) {
    if IsLocalIdentity(s.local, identity) then n == s.(local := n.local)
    else OnlyRemoteChanged(s, n, identity)
  }

  /** `q` is `p` with the same info and the same publications except
      perhaps the one under `sid`. */
  ghost predicate OtherPublicationsKept(p: Participant, q: Participant, sid: string) {
    && q.info == p.info
    && (forall k :: k != sid ==> (k in q.publications <==> k in p.publications))
    && (forall k :: k in p.publications && k != sid ==> q.publications[k] == p.publications[k])
  }

  /** Storing back a participant with an unchanged identity touches only
      that participant, and a later lookup finds the stored value. */
  lemma StoreResolves(s: RoomState, identity: string, q: Participant)
    requires s.Resolve(identity).Some?
    requires q.info.identity == s.Resolve(identity).value.info.identity
    ensures OnlyResolvedChanged(s, s.Store(identity, q), identity)
    ensures s.Store(identity, q).Resolve(identity) == Some(q)
  {
  }

  function OnParticipantConnected(s: RoomState, info: ParticipantInfo): (r: Result<Step, Fault>)
    ensures r.Failure? <==> info.identity in s.remotes
    ensures r.Failure? ==> r.error == ParticipantExists(info.identity)
    ensures r.Success? ==>
      && r.value.next == s.(remotes := r.value.next.remotes)
      && r.value.next.remotes.Keys == s.remotes.Keys + {info.identity}
      && (forall id :: id in s.remotes ==> r.value.next.remotes[id] == s.remotes[id])
      && r.value.next.remotes[info.identity] == NewParticipant(info)
      && r.value.note == Some(ParticipantConnected(NewParticipant(info)))
  {
    match CreateRemote(s.remotes, info)
    case Failure(f) => Failure(f)
    case Success(m) => Emit(s.(remotes := m), ParticipantConnected(m[info.identity]))
  }

  function OnParticipantDisconnected(s: RoomState, identity: string): (r: Result<Step, Fault>)
    ensures r.Failure? <==> identity !in s.remotes
    ensures r.Failure? ==> r.error == UnknownRemote(identity)
    ensures r.Success? ==>
      && r.value.next == s.(remotes := r.value.next.remotes)
      && r.value.next.remotes.Keys == s.remotes.Keys - {identity}
      && (forall id :: id in r.value.next.remotes ==> r.value.next.remotes[id] == s.remotes[id])
      && r.value.note == Some(ParticipantDisconnected(s.remotes[identity]))
  {
    match RemoveRemote(s.remotes, identity)
    case Failure(f) => Failure(f)
    case Success(removed) => Emit(s.(remotes := removed.0), ParticipantDisconnected(removed.1))
  }

  /** local_track_subscribed resolves the publication's first-subscription
      future; resolving it a second time raises. */
  function OnLocalTrackSubscribed(s: RoomState, sid: string): (r: Result<Step, Fault>)
    ensures r.Failure? <==> sid !in s.local.publications || s.local.publications[sid].firstSubscription
    ensures sid !in s.local.publications ==> r == Failure(UnknownPublication(sid))
    ensures sid in s.local.publications && s.local.publications[sid].firstSubscription ==> r == Failure(FutureAlreadyResolved)
    ensures r.Success? ==>
      && r.value.next == s.(local := r.value.next.local)
      && OtherPublicationsKept(s.local, r.value.next.local, sid)
      && sid in r.value.next.local.publications
      && r.value.next.local.publications[sid] == s.local.publications[sid].(firstSubscription := true)
      && r.value.note == Some(LocalTrackSubscribed(s.local.publications[sid].track))
  {
    if sid !in s.local.publications then Failure(UnknownPublication(sid))
    else
      var pub := s.local.publications[sid];
      if pub.firstSubscription then Failure(FutureAlreadyResolved)
      else
        var local' := s.local.(publications := s.local.publications[sid := pub.(firstSubscription := true)]);
        Emit(s.(local := local'), LocalTrackSubscribed(pub.track))
  }

  function OnTrackPublished(s: RoomState, identity: string, info: PublicationInfo): (r: Result<Step, Fault>)
    ensures r.Failure? <==> identity !in s.remotes
    ensures r.Failure? ==> r.error == UnknownRemote(identity)
    ensures r.Success? ==>
      && OnlyRemoteChanged(s, r.value.next, identity)
      && OtherPublicationsKept(s.remotes[identity], r.value.next.remotes[identity], info.sid)
      && info.sid in r.value.next.remotes[identity].publications
      && r.value.next.remotes[identity].publications[info.sid] == NewPublication(info)
      && r.value.note == Some(TrackPublished(NewPublication(info), r.value.next.remotes[identity]))
  {
    if identity !in s.remotes then Failure(UnknownRemote(identity))
    else
      var p := s.remotes[identity];
      var pub := NewPublication(info);
      var p' := p.(publications := p.publications[info.sid := pub]);
      Emit(s.(remotes := s.remotes[identity := p']), TrackPublished(pub, p'))
  }

  function OnTrackUnpublished(s: RoomState, identity: string, sid: string): (r: Result<Step, Fault>)
    ensures r.Failure? <==> identity !in s.remotes || sid !in s.remotes[identity].publications
    ensures identity !in s.remotes ==> r == Failure(UnknownRemote(identity))
    ensures identity in s.remotes && sid !in s.remotes[identity].publications ==> r == Failure(UnknownPublication(sid))
    ensures r.Success? ==>
      && OnlyRemoteChanged(s, r.value.next, identity)
      && OtherPublicationsKept(s.remotes[identity], r.value.next.remotes[identity], sid)
      && sid !in r.value.next.remotes[identity].publications
      && r.value.note == Some(TrackUnpublished(s.remotes[identity].publications[sid], r.value.next.remotes[identity]))
  {
    if identity !in s.remotes then Failure(UnknownRemote(identity))
    else
      var p := s.remotes[identity];
      if sid !in p.publications then Failure(UnknownPublication(sid))
      else
        var p' := p.(publications := p.publications - {sid});
        Emit(s.(remotes := s.remotes[identity := p']), TrackUnpublished(p.publications[sid], p'))
  }

  /** track_subscribed marks the publication subscribed and attaches a
      video or audio track by kind; for an unknown kind it attaches nothing
      and emits nothing. */
  function OnTrackSubscribed(s: RoomState, identity: string, info: TrackInfo): (r: Result<Step, Fault>)
    ensures r.Failure? <==> identity !in s.remotes || info.sid !in s.remotes[identity].publications
    ensures identity !in s.remotes ==> r == Failure(UnknownRemote(identity))
    ensures identity in s.remotes && info.sid !in s.remotes[identity].publications ==> r == Failure(UnknownPublication(info.sid))
    ensures r.Success? ==>
      && identity in s.remotes && info.sid in s.remotes[identity].publications
      && OnlyRemoteChanged(s, r.value.next, identity)
      && var oldPub := s.remotes[identity].publications[info.sid];
      && var p' := r.value.next.remotes[identity];
      && OtherPublicationsKept(s.remotes[identity], p', info.sid)
      && info.sid in p'.publications
      && p'.publications[info.sid].subscribed
      && p'.publications[info.sid].info == oldPub.info
      && p'.publications[info.sid].firstSubscription == oldPub.firstSubscription
      && (info.kind == KindVideo ==> p'.publications[info.sid].track == Some(VideoTrack(info)))
      && (info.kind == KindAudio ==> p'.publications[info.sid].track == Some(AudioTrack(info)))
      && (info.kind == KindUnknown ==> p'.publications[info.sid].track == oldPub.track)
      && (r.value.note.Some? <==> info.kind != KindUnknown)
      && (r.value.note.Some? ==> r.value.note.value == TrackSubscribed(TrackFor(info).value, p'.publications[info.sid], p'))
  {
    if identity !in s.remotes then Failure(UnknownRemote(identity))
    else
      var p := s.remotes[identity];
      if info.sid !in p.publications then Failure(UnknownPublication(info.sid))
      else
        var pub := p.publications[info.sid].(subscribed := true);
        var attached := TrackFor(info);
        var pub' := if attached.Some? then pub.(track := attached) else pub;
        var p' := p.(publications := p.publications[info.sid := pub']);
        var s' := s.(remotes := s.remotes[identity := p']);
        if attached.Some? then Emit(s', TrackSubscribed(attached.value, pub', p'))
        else Success(Step(s', None))
  }

  /** track_unsubscribed clears the track and the subscribed flag; the
      notification carries the track that was attached before. */
  function OnTrackUnsubscribed(s: RoomState, identity: string, sid: string): (r: Result<Step, Fault>)
    ensures r.Failure? <==> identity !in s.remotes || sid !in s.remotes[identity].publications
    ensures identity !in s.remotes ==> r == Failure(UnknownRemote(identity))
    ensures identity in s.remotes && sid !in s.remotes[identity].publications ==> r == Failure(UnknownPublication(sid))
    ensures r.Success? ==>
      && identity in s.remotes && sid in s.remotes[identity].publications
      && OnlyRemoteChanged(s, r.value.next, identity)
      && var oldPub := s.remotes[identity].publications[sid];
      && var p' := r.value.next.remotes[identity];
      && OtherPublicationsKept(s.remotes[identity], p', sid)
      && sid in p'.publications
      && p'.publications[sid] == oldPub.(subscribed := false, track := None)
      && r.value.note == Some(TrackUnsubscribed(oldPub.track, p'.publications[sid], p'))
  {
    if identity !in s.remotes then Failure(UnknownRemote(identity))
    else
      var p := s.remotes[identity];
      if sid !in p.publications then Failure(UnknownPublication(sid))
      else
        var pub := p.publications[sid];
        var pub' := pub.(track := None, subscribed := false);
        var p' := p.(publications := p.publications[sid := pub']);
        Emit(s.(remotes := s.remotes[identity := p']), TrackUnsubscribed(pub.track, pub', p'))
  }

  /** track_muted / track_unmuted set the mute flag of the publication and
      of its attached track, on the local or a remote participant. */
  function OnTrackMuteChanged(s: RoomState, identity: string, sid: string, muted: bool): (r: Result<Step, Fault>)
    ensures r.Failure? <==> s.Resolve(identity).None? || sid !in s.Resolve(identity).value.publications
    ensures s.Resolve(identity).None? ==> r == Failure(ParticipantUnresolved(identity))
    ensures s.Resolve(identity).Some? && sid !in s.Resolve(identity).value.publications ==> r == Failure(UnknownPublication(sid))
    ensures r.Success? ==>
      var p := s.Resolve(identity).value;
      && OnlyResolvedChanged(s, r.value.next, identity)
      && r.value.next.Resolve(identity).Some?
      && var p' := r.value.next.Resolve(identity).value;
      && OtherPublicationsKept(p, p', sid)
      && sid in p'.publications
      && p'.publications[sid] == SetMuted(p.publications[sid], muted)
      && r.value.note == Some(if muted then TrackMuted(p', p'.publications[sid]) else TrackUnmuted(p', p'.publications[sid]))
  {
    match s.Resolve(identity)
    case None => Failure(ParticipantUnresolved(identity))
    case Some(p) =>
      if sid !in p.publications then Failure(UnknownPublication(sid))
      else
        var pub' := SetMuted(p.publications[sid], muted);
        var p' := p.(publications := p.publications[sid := pub']);
        StoreResolves(s, identity, p');
        Emit(s.Store(identity, p'), if muted then TrackMuted(p', pub') else TrackUnmuted(p', pub'))
  }

  /** The active speakers, in the order given; the first identity that
      resolves to no participant raises. */
  function ResolveSpeakers(s: RoomState, ids: seq<string>): (r: Result<seq<Participant>, Fault>)
    ensures r.Success? <==> forall i :: 0 <= i < |ids| ==> s.Resolve(ids[i]).Some?
    ensures r.Success? ==> |r.value| == |ids| && forall i :: 0 <= i < |ids| ==> s.Resolve(ids[i]) == Some(r.value[i])
    ensures r.Failure? ==> exists i :: && 0 <= i < |ids|
                                      && s.Resolve(ids[i]).None?
                                      && r.error == ParticipantUnresolved(ids[i])
                                      && forall j :: 0 <= j < i ==> s.Resolve(ids[j]).Some?
  {
    if ids == [] then Success([])
    else match s.Resolve(ids[0])
      case None => Failure(ParticipantUnresolved(ids[0]))
      case Some(p) =>
        match ResolveSpeakers(s, ids[1..])
        case Failure(f) => assert ids[1..][0] == ids[1]; Failure(f)
        case Success(ps) => Success([p] + ps)
  }

  /** room_sid_changed: resolves the first-sid future only when the stored
      sid is empty, always overwrites the stored sid, and emits nothing. */
  function OnRoomSidChanged(s: RoomState, sid: string): (r: Result<Step, Fault>)
    ensures r.Failure? <==> s.info.sid == "" && s.firstSid.Some?
    ensures r.Failure? ==> r.error == FutureAlreadyResolved
    ensures r.Success? ==>
      && r.value.note == None
      && r.value.next.info == s.info.(sid := sid)
      && r.value.next.firstSid == (if s.info.sid == "" then Some(sid) else s.firstSid)
      && r.value.next == s.(info := r.value.next.info, firstSid := r.value.next.firstSid)
    ensures r.Success? && sid != "" ==> r.value.next.Sid() == Some(sid)
  {
    if s.info.sid == "" then
      if s.firstSid.Some? then Failure(FutureAlreadyResolved)
      else Success(Step(s.(firstSid := Some(sid), info := s.info.(sid := sid)), None))
    else Success(Step(s.(info := s.info.(sid := sid)), None))
  }

  function OnParticipantMetadataChanged(s: RoomState, identity: string, metadata: string): (r: Result<Step, Fault>)
    ensures r.Failure? <==> s.Resolve(identity).None?
    ensures r.Failure? ==> r.error == ParticipantUnresolved(identity)
    ensures r.Success? ==>
      var p := s.Resolve(identity).value;
      var p' := p.(info := p.info.(metadata := metadata));
      && OnlyResolvedChanged(s, r.value.next, identity)
      && r.value.next.Resolve(identity) == Some(p')
      && r.value.note == Some(ParticipantMetadataChanged(p', p.info.metadata, metadata))
  {
    match s.Resolve(identity)
    case None => Failure(ParticipantUnresolved(identity))
    case Some(p) =>
      var p' := p.(info := p.info.(metadata := metadata));
      StoreResolves(s, identity, p');
      Emit(s.Store(identity, p'), ParticipantMetadataChanged(p', p.info.metadata, p'.info.metadata))
  }

  function OnParticipantNameChanged(s: RoomState, identity: string, name: string): (r: Result<Step, Fault>)
    ensures r.Failure? <==> s.Resolve(identity).None?
    ensures r.Failure? ==> r.error == ParticipantUnresolved(identity)
    ensures r.Success? ==>
      var p := s.Resolve(identity).value;
      var p' := p.(info := p.info.(name := name));
      && OnlyResolvedChanged(s, r.value.next, identity)
      && r.value.next.Resolve(identity) == Some(p')
      && r.value.note == Some(ParticipantNameChanged(p', p.info.name, name))
  {
    match s.Resolve(identity)
    case None => Failure(ParticipantUnresolved(identity))
    case Some(p) =>
      var p' := p.(info := p.info.(name := name));
      StoreResolves(s, identity, p');
      Emit(s.Store(identity, p'), ParticipantNameChanged(p', p.info.name, p'.info.name))
  }

  /** participant_attributes_changed: the stored attributes become exactly
      the event's full map (clear, then update); the notification carries
      only the event's changed subset. */
  function OnParticipantAttributesChanged(s: RoomState, identity: string, attributes: map<string, string>, changed: map<string, string>): (r: Result<Step, Fault>)
    ensures r.Failure? <==> s.Resolve(identity).None?
    ensures r.Failure? ==> r.error == ParticipantUnresolved(identity)
    ensures r.Success? ==>
      var p := s.Resolve(identity).value;
      && OnlyResolvedChanged(s, r.value.next, identity)
      && r.value.next.Resolve(identity).Some?
      && var p' := r.value.next.Resolve(identity).value;
      && p'.info.attributes == attributes
      && p'.info.(attributes := p.info.attributes) == p.info
      && p'.publications == p.publications
      && r.value.note == Some(ParticipantAttributesChanged(changed, p'))
  {
    match s.Resolve(identity)
    case None => Failure(ParticipantUnresolved(identity))
    case Some(p) =>
      var p' := p.(info := p.info.(attributes := map[] + attributes));
      StoreResolves(s, identity, p');
      Emit(s.Store(identity, p'), ParticipantAttributesChanged(changed, p'))
  }

  /** The data_packet_received branch: a user packet or a DTMF tone, with
      the sender resolved among the remote participants only (None when it
      is not one, e.g. a server SDK); a packet with neither emits nothing. */
  function OnDataPacket(s: RoomState, identity: string, kind: DataPacketKind, value: DataValue): (n: Option<Notification>)
    ensures n.None? <==> value.NoValue?
    ensures value.UserData? ==>
      && n.Some? && n.value.DataReceived?
      && n.value.packet.data == value.data && n.value.packet.kind == kind && n.value.packet.topic == Some(value.topic)
      && (n.value.packet.participant.Some? <==> identity in s.remotes)
      && (identity in s.remotes ==> n.value.packet.participant == Some(s.remotes[identity]))
    ensures value.SipDtmfData? ==>
      && n.Some? && n.value.SipDtmfReceived?
      && n.value.tone.code == value.code && n.value.tone.digit == value.digit
      && (n.value.tone.participant.Some? <==> identity in s.remotes)
      && (identity in s.remotes ==> n.value.tone.participant == Some(s.remotes[identity]))
  {
    var sender := RetrieveRemoteParticipant(s.remotes, identity);
    match value
    case UserData(data, topic) => Some(DataReceived(DataPacket(data, kind, sender, Some(topic))))
    case SipDtmfData(code, digit) => Some(SipDtmfReceived(SipDtmf(code, digit, sender)))
    case NoValue => None
  }

  /** The transcription branch: the participant and the publication may
      both be absent, and the notification is emitted either way. */
  function OnTranscription(s: RoomState, identity: string, sid: string, segments: seq<TranscriptionSegment>): (n: Notification)
    ensures n.TranscriptionReceived? && n.segments == segments && n.about == s.Resolve(identity)
    ensures n.onPublication.Some? <==> s.Resolve(identity).Some? && sid in s.Resolve(identity).value.publications
    ensures n.onPublication.Some? ==> n.onPublication == Some(s.Resolve(identity).value.publications[sid])
  {
    var part := s.Resolve(identity);
    var pub := if part.Some? && sid in part.value.publications then Some(part.value.publications[sid]) else None;
    TranscriptionReceived(segments, part, pub)
  }

  /** One room event applied to the mirror. */
  function Apply(s: RoomState, e: RoomEvent): Result<Step, Fault> {
    match e
    case ParticipantConnectedEv(info) => OnParticipantConnected(s, info)
    case ParticipantDisconnectedEv(identity) => OnParticipantDisconnected(s, identity)
    case LocalTrackPublishedEv(sid) =>
      if sid !in s.local.publications then Failure(UnknownPublication(sid))
      else Emit(s, LocalTrackPublished(s.local.publications[sid], s.local.publications[sid].track))
    case LocalTrackUnpublishedEv(sid) =>
      if sid !in s.local.publications then Failure(UnknownPublication(sid))
      else Emit(s, LocalTrackUnpublished(s.local.publications[sid]))
    case LocalTrackSubscribedEv(sid) => OnLocalTrackSubscribed(s, sid)
    case TrackPublishedEv(identity, info) => OnTrackPublished(s, identity, info)
    case TrackUnpublishedEv(identity, sid) => OnTrackUnpublished(s, identity, sid)
    case TrackSubscribedEv(identity, info) => OnTrackSubscribed(s, identity, info)
    case TrackUnsubscribedEv(identity, sid) => OnTrackUnsubscribed(s, identity, sid)
    case TrackSubscriptionFailedEv(identity, sid, error) =>
      if identity !in s.remotes then Failure(UnknownRemote(identity))
      else Emit(s, TrackSubscriptionFailed(s.remotes[identity], sid, error))
    case TrackMutedEv(identity, sid) => OnTrackMuteChanged(s, identity, sid, true)
    case TrackUnmutedEv(identity, sid) => OnTrackMuteChanged(s, identity, sid, false)
    case ActiveSpeakersChangedEv(ids) =>
      (match ResolveSpeakers(s, ids)
       case Failure(f) => Failure(f)
       case Success(speakers) => Emit(s, ActiveSpeakersChanged(speakers)))
    case RoomMetadataChangedEv(metadata) =>
      Emit(s.(info := s.info.(metadata := metadata)), RoomMetadataChanged(s.info.metadata, metadata))
    case RoomSidChangedEv(sid) => OnRoomSidChanged(s, sid)
    case ParticipantMetadataChangedEv(identity, metadata) => OnParticipantMetadataChanged(s, identity, metadata)
    case ParticipantNameChangedEv(identity, name) => OnParticipantNameChanged(s, identity, name)
    case ParticipantAttributesChangedEv(identity, attributes, changed) =>
      OnParticipantAttributesChanged(s, identity, attributes, changed)
    case ConnectionQualityChangedEv(identity, quality) =>
      Emit(s, ConnectionQualityChanged(s.Resolve(identity), quality))
    case TranscriptionReceivedEv(identity, sid, segments) =>
      Emit(s, OnTranscription(s, identity, sid, segments))
    case DataPacketReceivedEv(identity, kind, value) =>
      Success(Step(s, OnDataPacket(s, identity, kind, value)))
    case E2eeStateChangedEv(identity, state) =>
      Emit(s, E2eeStateChanged(s.Resolve(identity), state))
    case ConnectionStateChangedEv(state) =>
      Emit(s.(connectionState := state), ConnectionStateChanged(state))
    case ConnectedEv => Emit(s, Connected)
    case DisconnectedEv(reason) => Emit(s, Disconnected(reason))
    case ReconnectingEv => Emit(s, Reconnecting)
    case ReconnectedEv => Emit(s, Reconnected)
    case Eos => Success(Step(s, None))
    case Unhandled => Success(Step(s, None))
  }
}

=== FILE: dispatch_loop.dfy ===
/** The dispatch loop's policy over the stream of envelopes taken off the
    session's subscription: envelopes for another room handle are passed on
    without touching the mirror, an end-of-stream for this room ends the
    loop, and an event that raises is recorded and the loop goes on. */
module DispatchLoop {
  import opened Wrappers
  import opened Entities
  import opened Events
  import opened Dispatch
  import opened DispatchProperties

  /** What the loop has done so far: the mirror, the notifications emitted,
      the envelopes republished to the secondary queue, the faults logged,
      and whether the loop has ended. */
  datatype Progress = Progress(
    state: RoomState,
    emitted: seq<Notification>,
    republished: seq<Envelope>,
    faults: seq<Fault>,
    finished: bool)

  /** The notifications one step emits. */
  function NoteLog(note: Option<Notification>): seq<Notification> {
    if note.Some? then [note.value] else []
  }

  /** One iteration of the loop body on one envelope. */
  function Feed(p: Progress, handle: nat, env: Envelope): Progress {
    if p.finished then p
    else if env.roomHandle != handle then p.(republished := p.republished + [env])
    else if env.event.Eos? then p.(finished := true)
    else match Apply(p.state, env.event)
      case Success(st) =>
        p.(state := st.next, emitted := p.emitted + NoteLog(st.note), republished := p.republished + [env])
      case Failure(f) =>
        p.(faults := p.faults + [f], republished := p.republished + [env])
  }

  /** The loop run over a finite stream of envelopes, in order. */
  function Run(p: Progress, handle: nat, events: seq<Envelope>): Progress
    decreases |events|
  {
    if events == [] then p else Run(Feed(p, handle, events[0]), handle, events[1..])
  }

  /** Once the loop has ended, no further envelope has any effect. */
  lemma {:induction false} RunFinished(p: Progress, handle: nat, events: seq<Envelope>)
    requires p.finished
    ensures Run(p, handle, events) == p
    decreases |events|
  {
    if events != [] {
      RunFinished(Feed(p, handle, events[0]), handle, events[1..]);
    }
  }

  /** Events are applied strictly in order: running over `a + b` is running
      over `a` and then over `b` from where `a` left off. */
  lemma {:induction false} RunAppend(p: Progress, handle: nat, a: seq<Envelope>, b: seq<Envelope>)
    ensures Run(p, handle, a + b) == Run(Run(p, handle, a), handle, b)
    decreases |a|
  {
    if a != [] {
      assert (a + b)[0] == a[0];
      assert (a + b)[1..] == a[1..] + b;
      RunAppend(Feed(p, handle, a[0]), handle, a[1..], b);
    } else {
      assert a + b == b;
    }
  }

  /** An end-of-stream for this room ends the loop: nothing that follows it
      is applied, and it changes neither the mirror nor the logs. */
  lemma EosStops(p: Progress, handle: nat, before: seq<Envelope>, after: seq<Envelope>)
    ensures var q := Run(p, handle, before);
      var eos := [Envelope(handle, Eos)];
      && Run(p, handle, before + eos + after) == Run(p, handle, before + eos)
      && Run(p, handle, before + eos).finished
      && Run(p, handle, before + eos) == q.(finished := true)
  {
    var eos := [Envelope(handle, Eos)];
    RunAppend(p, handle, before + eos, after);
    RunAppend(p, handle, before, eos);
    RunFinished(Run(p, handle, before + eos), handle, after);
  }

  /** Envelopes addressed to another room handle leave the mirror, the
      notifications and the faults alone; they are only passed on. */
  lemma {:induction false} ForeignEventsIgnored(p: Progress, handle: nat, events: seq<Envelope>)
    requires !p.finished
    requires forall i :: 0 <= i < |events| ==> events[i].roomHandle != handle
    ensures Run(p, handle, events) == p.(republished := p.republished + events)
    decreases |events|
  {
    if events != [] {
      ForeignEventsIgnored(Feed(p, handle, events[0]), handle, events[1..]);
      assert p.republished + [events[0]] + events[1..] == p.republished + events;
    }
  }

  /** An event that raises is logged and the loop carries on with the next
      envelope from an unchanged mirror. */
  lemma FailingEventContinues(p: Progress, handle: nat, env: Envelope, rest: seq<Envelope>)
    requires !p.finished && env.roomHandle == handle && !env.event.Eos?
    requires Apply(p.state, env.event).Failure?
    ensures Run(p, handle, [env] + rest)
         == Run(p.(faults := p.faults + [Apply(p.state, env.event).error], republished := p.republished + [env]), handle, rest)
  {
    assert ([env] + rest)[1..] == rest;
  }

  /** The identities registered after the loop has run over `events`,
      computed from the events alone. */
  function IdentitiesAfter(keys: set<string>, handle: nat, events: seq<Envelope>): set<string>
    decreases |events|
  {
    if events == [] then keys
    else if events[0].roomHandle != handle then IdentitiesAfter(keys, handle, events[1..])
    else if events[0].event.Eos? then keys
    else IdentitiesAfter(KeysAfter(keys, events[0].event), handle, events[1..])
  }

  /** The registered identities after any stream of events are those that
      replaying its participant_connected / participant_disconnected events
      from the initial roster gives. */
  lemma {:induction false} RunRegisteredIdentities(p: Progress, handle: nat, events: seq<Envelope>)
    requires !p.finished
    ensures Run(p, handle, events).state.remotes.Keys == IdentitiesAfter(p.state.remotes.Keys, handle, events)
    decreases |events|
  {
    if events != [] {
      var env := events[0];
      var q := Feed(p, handle, env);
      if env.roomHandle != handle {
        RunRegisteredIdentities(q, handle, events[1..]);
      } else if env.event.Eos? {
        RunFinished(q, handle, events[1..]);
      } else {
        RemoteKeysFollowEvent(p.state, env.event);
        RunRegisteredIdentities(q, handle, events[1..]);
      }
    }
  }

  /** The loop keeps the registry invariant and never changes the handle. */
  lemma {:induction false} RunPreservesValid(p: Progress, handle: nat, events: seq<Envelope>)
    requires p.state.Valid()
    ensures Run(p, handle, events).state.Valid()
    ensures Run(p, handle, events).state.handle == p.state.handle
    decreases |events|
  {
    if events != [] {
      var env := events[0];
      if !p.finished && env.roomHandle == handle && !env.event.Eos? {
        ApplyPreservesValid(p.state, env.event);
        if Apply(p.state, env.event).Success? {
          ConnectionStateOnlyByItsEvent(p.state, env.event);
        }
      }
      RunPreservesValid(Feed(p, handle, env), handle, events[1..]);
    }
  }
}

=== FILE: dispatch_properties.dfy ===
/** Properties of the per-event state machine that relate several events,
    or that hold across every event kind. */
module DispatchProperties {
  import opened Wrappers
  import opened Entities
  import opened Events
  import opened Registry
  import opened Dispatch

  /** The identities registered after one event, computed from the event
      alone: participant_connected adds its identity, participant_disconnected
      removes its identity, every other kind keeps the set. */
  function KeysAfter(keys: set<string>, e: RoomEvent): set<string> {
    match e
    case ParticipantConnectedEv(info) => keys + {info.identity}
    case ParticipantDisconnectedEv(identity) => keys - {identity}
    case _ => keys
  }

  /** Only participant_connected and participant_disconnected change the
      set of registered identities, and they change it exactly as KeysAfter
      says, whether they succeed or raise (a raising connect names an
      identity already there, a raising disconnect one already absent). */
  lemma RemoteKeysFollowEvent(s: RoomState, e: RoomEvent)
    ensures (if Apply(s, e).Success? then Apply(s, e).value.next.remotes.Keys else s.remotes.Keys)
            == KeysAfter(s.remotes.Keys, e)
  {
    if Apply(s, e).Success? {
      ApplyFrame(s, e);
    }
  }

  /** What an applied event leaves alone: the handle always, the
      connection state unless it is connection_state_changed, the first-sid
      future unless it is room_sid_changed, and the set of registered
      identities unless it is participant_connected or
      participant_disconnected. A message kind the dispatch has no branch
      for changes nothing and emits nothing. */
  lemma ApplyFrame(s: RoomState, e: RoomEvent)
    requires Apply(s, e).Success?
    ensures Apply(s, e).value.next.handle == s.handle
    ensures !e.ConnectionStateChangedEv? ==> Apply(s, e).value.next.connectionState == s.connectionState
    ensures !e.RoomSidChangedEv? ==> Apply(s, e).value.next.firstSid == s.firstSid
    ensures !e.ParticipantConnectedEv? && !e.ParticipantDisconnectedEv? ==>
      Apply(s, e).value.next.remotes.Keys == s.remotes.Keys
    ensures e.Unhandled? || e.Eos? ==> Apply(s, e).value == Step(s, None)
  {
    if || e.TrackPublishedEv? || e.TrackUnpublishedEv? || e.TrackSubscribedEv? || e.TrackUnsubscribedEv?
       || e.TrackMutedEv? || e.TrackUnmutedEv? || e.ParticipantMetadataChangedEv? || e.ParticipantNameChangedEv?
       || e.ParticipantAttributesChangedEv? {
      ParticipantEventFrame(s, e);
    } else if || e.ParticipantConnectedEv? || e.ParticipantDisconnectedEv? || e.LocalTrackSubscribedEv?
              || e.RoomMetadataChangedEv? || e.RoomSidChangedEv? || e.ConnectionStateChangedEv? || e.Eos? || e.Unhandled? {
    } else {
      NotifyOnlyEvents(s, e);
    }
  }

  /** The events that update one participant change nothing else. */
  lemma ParticipantEventFrame(s: RoomState, e: RoomEvent)
    requires Apply(s, e).Success?
    requires || e.TrackPublishedEv? || e.TrackUnpublishedEv? || e.TrackSubscribedEv? || e.TrackUnsubscribedEv?
             || e.TrackMutedEv? || e.TrackUnmutedEv? || e.ParticipantMetadataChangedEv? || e.ParticipantNameChangedEv?
             || e.ParticipantAttributesChangedEv?
    ensures var n := Apply(s, e).value.next;
      && n.handle == s.handle && n.connectionState == s.connectionState && n.firstSid == s.firstSid
      && n.remotes.Keys == s.remotes.Keys
  {
  }

  /** Every event keeps the registry invariant: participants stay under
      their identities and publications under their sids. */
  lemma ApplyPreservesValid(s: RoomState, e: RoomEvent)
    requires s.Valid()
    ensures Apply(s, e).Success? ==> Apply(s, e).value.next.Valid()
  {
    if Apply(s, e).Success? {
      if e.TrackPublishedEv? || e.TrackUnpublishedEv? || e.TrackSubscribedEv? || e.TrackUnsubscribedEv? {
        RemoteTrackEventKeepsValid(s, e);
      } else if e.TrackMutedEv? || e.TrackUnmutedEv? {
        MuteKeepsValid(s, e.identity, e.trackSid, e.TrackMutedEv?);
      } else if e.ParticipantMetadataChangedEv? || e.ParticipantNameChangedEv? || e.ParticipantAttributesChangedEv? {
        ParticipantInfoEventKeepsValid(s, e);
      } else {
        OtherEventKeepsValid(s, e);
      }
    }
  }

  lemma RemoteTrackEventKeepsValid(s: RoomState, e: RoomEvent)
    requires s.Valid() && Apply(s, e).Success?
    requires e.TrackPublishedEv? || e.TrackUnpublishedEv? || e.TrackSubscribedEv? || e.TrackUnsubscribedEv?
    ensures Apply(s, e).value.next.Valid()
  {
    RemoteUpdateKeepsValid(s, Apply(s, e).value.next, e.identity);
  }

  lemma ParticipantInfoEventKeepsValid(s: RoomState, e: RoomEvent)
    requires s.Valid() && Apply(s, e).Success?
    requires e.ParticipantMetadataChangedEv? || e.ParticipantNameChangedEv? || e.ParticipantAttributesChangedEv?
    ensures Apply(s, e).value.next.Valid()
  {
    var p := s.Resolve(e.identity).value;
    var q := if e.ParticipantMetadataChangedEv? then p.(info := p.info.(metadata := e.metadata))
             else if e.ParticipantNameChangedEv? then p.(info := p.info.(name := e.name))
             else p.(info := p.info.(attributes := map[] + e.attributes));
    StoreKeepsValid(s, e.identity, q);
  }

  lemma OtherEventKeepsValid(s: RoomState, e: RoomEvent)
    requires s.Valid() && Apply(s, e).Success?
    requires !(e.TrackPublishedEv? || e.TrackUnpublishedEv? || e.TrackSubscribedEv? || e.TrackUnsubscribedEv?)
    requires !(e.TrackMutedEv? || e.TrackUnmutedEv?)
    requires !(e.ParticipantMetadataChangedEv? || e.ParticipantNameChangedEv? || e.ParticipantAttributesChangedEv?)
    ensures Apply(s, e).value.next.Valid()
  {
  }

  /** A change confined to one remote participant keeps the invariant when
      that participant's publications stay keyed by sid. */
  lemma RemoteUpdateKeepsValid(s: RoomState, n: RoomState, identity: string)
    requires s.Valid() && identity in s.remotes
    requires OnlyRemoteChanged(s, n, identity)
    requires n.remotes[identity].info == s.remotes[identity].info
    requires forall k :: k in n.remotes[identity].publications ==> n.remotes[identity].publications[k].info.sid == k
    ensures n.Valid()
  {
  }

  /** Writing back a participant that keeps the looked-up identity and
      whose publications are keyed by sid keeps the invariant. */
  lemma StoreKeepsValid(s: RoomState, identity: string, q: Participant)
    requires s.Valid() && s.Resolve(identity).Some?
    requires q.info.identity == s.Resolve(identity).value.info.identity
    requires KeyedBySid(q.publications)
    ensures s.Store(identity, q).Valid()
  {
    RetrieveParticipantSound(s.local, s.remotes, identity);
  }

  lemma MuteKeepsValid(s: RoomState, identity: string, sid: string, muted: bool)
    requires s.Valid()
    requires OnTrackMuteChanged(s, identity, sid, muted).Success?
    ensures OnTrackMuteChanged(s, identity, sid, muted).value.next.Valid()
  {
    var p := s.Resolve(identity).value;
    RetrieveParticipantSound(s.local, s.remotes, identity);
    assert KeyedBySid(p.publications);
    var p' := p.(publications := p.publications[sid := SetMuted(p.publications[sid], muted)]);
    StoreKeepsValid(s, identity, p');
  }

  /** Whether the room counts as connected changes only on
      connection_state_changed. That event never raises: it stores the new
      state only, reports it, and the room is then connected exactly when
      it has a handle and the new state is not disconnected. */
  lemma ConnectionStateOnlyByItsEvent(s: RoomState, e: RoomEvent)
    requires Apply(s, e).Success?
    ensures !e.ConnectionStateChangedEv? ==> (Apply(s, e).value.next.IsConnected() <==> s.IsConnected())
    ensures e.ConnectionStateChangedEv? ==>
      var st := Apply(s, e).value;
      && st.next.connectionState == e.connectionState
      && st.next == s.(connectionState := st.next.connectionState)
      && st.note == Some(ConnectionStateChanged(e.connectionState))
      && (st.next.IsConnected() <==> s.handle.Some? && e.connectionState != ConnDisconnected)
  {
    ApplyFrame(s, e);
  }

  /** room_metadata_changed never raises: it replaces the room metadata
      only and reports the old and the new value. */
  lemma RoomMetadataEvent(s: RoomState, metadata: string)
    ensures Apply(s, RoomMetadataChangedEv(metadata)).Success?
    ensures var st := Apply(s, RoomMetadataChangedEv(metadata)).value;
      && st.next.info.metadata == metadata
      && st.next.info.(metadata := s.info.metadata) == s.info
      && st.next == s.(info := st.next.info)
      && st.note == Some(RoomMetadataChanged(s.info.metadata, metadata))
  {
  }

  /** The reports about a participant never raise and never change the
      mirror. Quality, end-to-end encryption and transcription notes carry
      the local-or-remote lookup, which may have found nothing; a data
      packet or DTMF tone carries the remote lookup only. */
  lemma ReportEvents(s: RoomState, e: RoomEvent)
    requires || e.ConnectionQualityChangedEv? || e.TranscriptionReceivedEv? || e.DataPacketReceivedEv?
             || e.E2eeStateChangedEv?
    ensures Apply(s, e).Success? && Apply(s, e).value.next == s
    ensures e.ConnectionQualityChangedEv? ==>
      Apply(s, e).value.note == Some(ConnectionQualityChanged(s.Resolve(e.identity), e.quality))
    ensures e.E2eeStateChangedEv? ==>
      Apply(s, e).value.note == Some(E2eeStateChanged(s.Resolve(e.identity), e.e2eeState))
    ensures e.TranscriptionReceivedEv? ==>
      && Apply(s, e).value.note.Some?
      && Apply(s, e).value.note.value == OnTranscription(s, e.identity, e.trackSid, e.segments)
      && Apply(s, e).value.note.value.about == s.Resolve(e.identity)
    ensures e.DataPacketReceivedEv? ==>
      && Apply(s, e).value.note == OnDataPacket(s, e.identity, e.kind, e.value)
      && (Apply(s, e).value.note.None? <==> e.value.NoValue?)
  {
  }

  /** The first-sid future is resolved at most once: once it holds a value,
      no event changes it; and only a room_sid_changed that finds the stored
      sid empty resolves it. */
  lemma FirstSidResolvedOnce(s: RoomState, e: RoomEvent)
    requires Apply(s, e).Success?
    ensures s.firstSid.Some? ==> Apply(s, e).value.next.firstSid == s.firstSid
    ensures Apply(s, e).value.next.firstSid != s.firstSid ==>
      e.RoomSidChangedEv? && s.firstSid.None? && s.info.sid == ""
      && Apply(s, e).value.next.firstSid == Some(e.sid)
  {
    ApplyFrame(s, e);
  }

  /** Two room_sid_changed events on a room whose sid is still unknown: the
      first resolves the future and the getter answers it; the second
      overwrites the stored sid without touching the resolved future. */
  lemma SidChangedTwice(s: RoomState, first: string, second: string)
    requires s.info.sid == "" && s.firstSid.None?
    requires first != ""
    ensures Apply(s, RoomSidChangedEv(first)).Success?
    ensures var s1 := Apply(s, RoomSidChangedEv(first)).value.next;
      && s1.Sid() == Some(first)
      && Apply(s1, RoomSidChangedEv(second)).Success?
      && var s2 := Apply(s1, RoomSidChangedEv(second)).value.next;
      && s2.firstSid == Some(first)
      && s2.info.sid == second
      && s2.Sid() == Some(if second != "" then second else first)
  {
  }

  /** Subscribing a track and then unsubscribing it leaves the publication
      unsubscribed with no track, and the unsubscribe notification carries
      the track that the subscription attached. */
  lemma SubscribeThenUnsubscribe(s: RoomState, identity: string, info: TrackInfo)
    requires identity in s.remotes && info.sid in s.remotes[identity].publications
    requires info.kind != KindUnknown
    ensures Apply(s, TrackSubscribedEv(identity, info)).Success?
    ensures var s1 := Apply(s, TrackSubscribedEv(identity, info)).value.next;
      && Apply(s1, TrackUnsubscribedEv(identity, info.sid)).Success?
      && var st := Apply(s1, TrackUnsubscribedEv(identity, info.sid)).value;
      && identity in st.next.remotes
      && info.sid in st.next.remotes[identity].publications
      && var pub := st.next.remotes[identity].publications[info.sid];
      && !pub.subscribed && pub.track.None?
      && pub.info == s.remotes[identity].publications[info.sid].info
      && st.note.Some? && st.note.value.TrackUnsubscribed?
      && st.note.value.track == TrackFor(info)
      && st.note.value.track.Some?
  {
    var s1 := Apply(s, TrackSubscribedEv(identity, info)).value.next;
    assert s1.remotes[identity].publications[info.sid].track == TrackFor(info);
  }

  /** track_muted and track_unmuted are idempotent: applying the same event
      to the state it produced gives that state again, and the same
      notification is emitted the second time too. */
  lemma MuteIdempotent(s: RoomState, e: RoomEvent)
    requires e.TrackMutedEv? || e.TrackUnmutedEv?
    requires Apply(s, e).Success?
    ensures Apply(Apply(s, e).value.next, e) == Apply(s, e)
  {
    var muted := e.TrackMutedEv?;
    var st := OnTrackMuteChanged(s, e.identity, e.trackSid, muted);
    assert Apply(s, e) == st;
    var n := st.value.next;
    var q := n.Resolve(e.identity).value;
    var pub := q.publications[e.trackSid];
    var p := s.Resolve(e.identity).value;
    assert pub == SetMuted(p.publications[e.trackSid], muted);
    assert SetMuted(pub, muted) == pub;
    assert q.(publications := q.publications[e.trackSid := pub]) == q;
    StoreFound(n, e.identity);
    assert Apply(n, e) == OnTrackMuteChanged(n, e.identity, e.trackSid, muted);
  }

  /** Storing back the participant a lookup found changes nothing. */
  lemma StoreFound(n: RoomState, identity: string)
    requires n.Resolve(identity).Some?
    ensures n.Store(identity, n.Resolve(identity).value) == n
  {
    if !IsLocalIdentity(n.local, identity) {
      assert n.remotes[identity := n.remotes[identity]] == n.remotes;
    }
  }

  /** Events that only notify never change the mirror; those that look a
      participant or publication up raise exactly when a required lookup
      misses, and the ones that tolerate a miss never raise. */
  lemma NotifyOnlyEvents(s: RoomState, e: RoomEvent)
    requires || e.LocalTrackPublishedEv? || e.LocalTrackUnpublishedEv? || e.TrackSubscriptionFailedEv?
             || e.ActiveSpeakersChangedEv? || e.ConnectionQualityChangedEv? || e.TranscriptionReceivedEv?
             || e.DataPacketReceivedEv? || e.E2eeStateChangedEv? || e.ConnectedEv? || e.DisconnectedEv?
             || e.ReconnectingEv? || e.ReconnectedEv?
    ensures Apply(s, e).Success? ==> Apply(s, e).value.next == s
    ensures e.LocalTrackPublishedEv? ==> (Apply(s, e).Failure? <==> e.trackSid !in s.local.publications)
    ensures e.LocalTrackUnpublishedEv? ==> (Apply(s, e).Failure? <==> e.publicationSid !in s.local.publications)
    ensures e.TrackSubscriptionFailedEv? ==> (Apply(s, e).Failure? <==> e.identity !in s.remotes)
    ensures e.ActiveSpeakersChangedEv? ==>
      (Apply(s, e).Failure? <==> exists i :: 0 <= i < |e.identities| && s.Resolve(e.identities[i]).None?)
    ensures (&& !e.LocalTrackPublishedEv? && !e.LocalTrackUnpublishedEv? && !e.TrackSubscriptionFailedEv?
             && !e.ActiveSpeakersChangedEv?) ==> Apply(s, e).Success?
    ensures !e.DataPacketReceivedEv? && Apply(s, e).Success? ==> Apply(s, e).value.note.Some?
    ensures e.LocalTrackPublishedEv? && Apply(s, e).Success? ==>
      var pub := s.local.publications[e.trackSid];
      Apply(s, e).value.note == Some(LocalTrackPublished(pub, pub.track))
    ensures e.LocalTrackUnpublishedEv? && Apply(s, e).Success? ==>
      Apply(s, e).value.note == Some(LocalTrackUnpublished(s.local.publications[e.publicationSid]))
    ensures e.TrackSubscriptionFailedEv? && Apply(s, e).Success? ==>
      Apply(s, e).value.note == Some(TrackSubscriptionFailed(s.remotes[e.identity], e.trackSid, e.error))
    ensures e.ActiveSpeakersChangedEv? ==>
      && (ResolveSpeakers(s, e.identities).Success? ==>
            Apply(s, e).value.note == Some(ActiveSpeakersChanged(ResolveSpeakers(s, e.identities).value)))
      && (ResolveSpeakers(s, e.identities).Failure? ==>
            Apply(s, e) == Failure(ResolveSpeakers(s, e.identities).error))
    ensures e.ConnectedEv? ==> Apply(s, e).value.note == Some(Connected)
    ensures e.DisconnectedEv? ==> Apply(s, e).value.note == Some(Disconnected(e.reason))
    ensures e.ReconnectingEv? ==> Apply(s, e).value.note == Some(Reconnecting)
    ensures e.ReconnectedEv? ==> Apply(s, e).value.note == Some(Reconnected)
  {
  }

  /** The stored attributes become the event's full map while the
      notification carries only the changed subset, as in this example. */
  lemma AttributesExample(s: RoomState, identity: string)
    requires identity in s.remotes && !IsLocalIdentity(s.local, identity)
    ensures var e := ParticipantAttributesChangedEv(identity, map["a" := "1", "b" := "2"], map["b" := "2"]);
      && Apply(s, e).Success?
      && Apply(s, e).value.next.remotes[identity].info.attributes == map["a" := "1", "b" := "2"]
      && Apply(s, e).value.note.Some?
      && Apply(s, e).value.note.value.ParticipantAttributesChanged?
      && Apply(s, e).value.note.value.changed == map["b" := "2"]
  {
  }
}

=== FILE: entities.dfy ===
/** The mirrored object graph of a session: participants, their track
    publications and the tracks attached to them, plus the value objects
    (data packets, DTMF tones, transcription segments) that are only ever
    delivered to listeners. */
module Entities {
  import opened Wrappers

  newtype byte = b: int | 0 <= b < 256

  /** The engine's track kind enum: KIND_UNKNOWN, KIND_AUDIO, KIND_VIDEO. */
  datatype TrackKind = KindUnknown | KindAudio | KindVideo

  /** The engine's connection state enum. */
  datatype ConnectionState = ConnDisconnected | ConnConnected | ConnReconnecting

  /** The engine's data packet reliability enum. */
  datatype DataPacketKind = KindLossy | KindReliable

  datatype TrackInfo = TrackInfo(sid: string, name: string, kind: TrackKind, muted: bool)

  /** A track attached to a publication; the constructor records which
      track class was built for it. */
  datatype Track = AudioTrack(info: TrackInfo) | VideoTrack(info: TrackInfo)

  datatype PublicationInfo = PublicationInfo(sid: string, name: string, kind: TrackKind, muted: bool)

  /** A track publication. `firstSubscription` is the state of the
      publication's first-subscription future (true once it is resolved);
      only publications of the local participant ever resolve it. */
  datatype Publication = Publication(
    info: PublicationInfo,
    subscribed: bool,
    track: Option<Track>,
    firstSubscription: bool)

  datatype ParticipantInfo = ParticipantInfo(
    sid: string,
    identity: string,
    name: string,
    metadata: string,
    attributes: map<string, string>)

  /** A participant with its publications keyed by publication sid. */
  datatype Participant = Participant(info: ParticipantInfo, publications: map<string, Publication>)

  datatype RoomInfo = RoomInfo(sid: string, name: string, metadata: string)

  /** A transcription segment; its start and end times are floating point
      numbers and are not part of this model. */
  datatype TranscriptionSegment = TranscriptionSegment(id: string, text: string, final: bool, language: string)

  /** A user data packet as delivered to listeners; `participant` is None
      when the packet was sent by a server SDK. */
  datatype DataPacket = DataPacket(
    data: seq<byte>,
    kind: DataPacketKind,
    participant: Option<Participant>,
    topic: Option<string>)

  /** A SIP DTMF tone as delivered to listeners. */
  datatype SipDtmf = SipDtmf(code: int, digit: string, participant: Option<Participant>)

  /** Why applying one event raised. */
  datatype Fault =
    | ParticipantExists(identity: string)      // "participant already exists"
    | UnknownRemote(identity: string)          // KeyError on the remote participant map
    | UnknownPublication(sid: string)          // KeyError on a publication map
    | ParticipantUnresolved(identity: string)  // the isinstance assertion on a lookup
    | FutureAlreadyResolved                    // set_result on a future that is done
    | ConnectError(message: string)            // the engine refused the connection

  /** A remote participant mirror as first created: no publications yet. */
  function NewParticipant(info: ParticipantInfo): Participant {
    Participant(info, map[])
  }

  /** A remote publication mirror as first created: not subscribed, no track. */
  function NewPublication(info: PublicationInfo): Publication {
    Publication(info, false, None, false)
  }

  /** The track class the mirror builds for a subscribed track of this
      kind; None for an unknown kind, for which no track is built. */
  function TrackFor(info: TrackInfo): (t: Option<Track>)
    ensures t.Some? <==> info.kind != KindUnknown
    ensures t.Some? ==> t.value.info == info
    ensures t.Some? ==> (t.value.VideoTrack? <==> info.kind == KindVideo)
  {
    match info.kind
    case KindVideo => Some(VideoTrack(info))
    case KindAudio => Some(AudioTrack(info))
    case KindUnknown => None
  }

  /** A track with its mute flag set. */
  function MuteTrack(t: Track, muted: bool): Track {
    match t
    case AudioTrack(i) => AudioTrack(i.(muted := muted))
    case VideoTrack(i) => VideoTrack(i.(muted := muted))
  }

  /** A publication with its mute flag, and its track's if it has one, set
      to `muted`; nothing else changes. */
  function SetMuted(pub: Publication, muted: bool): (r: Publication)
    ensures r.info.muted == muted
    ensures r.info.(muted := pub.info.muted) == pub.info
    ensures r.subscribed == pub.subscribed && r.firstSubscription == pub.firstSubscription
    ensures r.track.Some? <==> pub.track.Some?
    ensures r.track.Some? ==>
      && r.track.value.info.muted == muted
      && r.track.value.info.(muted := pub.track.value.info.muted) == pub.track.value.info
      && (r.track.value.VideoTrack? <==> pub.track.value.VideoTrack?)
  {
    Publication(
      pub.info.(muted := muted),
      pub.subscribed,
      if pub.track.Some? then Some(MuteTrack(pub.track.value, muted)) else None,
      pub.firstSubscription)
  }

  /** Every publication is stored under its own sid. */
  ghost predicate KeyedBySid(pubs: map<string, Publication>) {
    forall sid :: sid in pubs ==> pubs[sid].info.sid == sid
  }

  /** Every participant is stored under its own identity, and its
      publications under their sids. */
  ghost predicate KeyedByIdentity(remotes: map<string, Participant>) {
    forall id :: id in remotes ==> remotes[id].info.identity == id && KeyedBySid(remotes[id].publications)
  }
}

=== FILE: events.dfy ===
/** What crosses the boundary: the tagged room events the engine delivers,
    the envelope that carries the room handle, and the notifications the
    session emits to its listeners. */
module Events {
  import opened Wrappers
  import opened Entities

  /** The payload of a data_packet_received event. */
  datatype DataValue =
    | UserData(data: seq<byte>, topic: string)
    | SipDtmfData(code: int, digit: string)
    | NoValue

  /** One room event, one constructor per message kind. `Unhandled` stands
      for a message kind the dispatch has no branch for (and for an envelope
      that carries no room event at all). */
  datatype RoomEvent =
    | ParticipantConnectedEv(participant: ParticipantInfo)
    | ParticipantDisconnectedEv(identity: string)
    | LocalTrackPublishedEv(trackSid: string)
    | LocalTrackUnpublishedEv(publicationSid: string)
    | LocalTrackSubscribedEv(trackSid: string)
    | TrackPublishedEv(identity: string, publication: PublicationInfo)
    | TrackUnpublishedEv(identity: string, publicationSid: string)
    | TrackSubscribedEv(identity: string, track: TrackInfo)
    | TrackUnsubscribedEv(identity: string, trackSid: string)
    | TrackSubscriptionFailedEv(identity: string, trackSid: string, error: string)
    | TrackMutedEv(identity: string, trackSid: string)
    | TrackUnmutedEv(identity: string, trackSid: string)
    | ActiveSpeakersChangedEv(identities: seq<string>)
    | RoomMetadataChangedEv(metadata: string)
    | RoomSidChangedEv(sid: string)
    | ParticipantMetadataChangedEv(identity: string, metadata: string)
    | ParticipantNameChangedEv(identity: string, name: string)
    | ParticipantAttributesChangedEv(identity: string, attributes: map<string, string>, changed: map<string, string>)
    | ConnectionQualityChangedEv(identity: string, quality: nat)
    | TranscriptionReceivedEv(identity: string, trackSid: string, segments: seq<TranscriptionSegment>)
    | DataPacketReceivedEv(identity: string, kind: DataPacketKind, value: DataValue)
    | E2eeStateChangedEv(identity: string, e2eeState: nat)
    | ConnectionStateChangedEv(connectionState: ConnectionState)
    | ConnectedEv
    | DisconnectedEv(reason: nat)
    | ReconnectingEv
    | ReconnectedEv
    | Eos
    | Unhandled

  /** An event taken off the shared delivery channel: the room handle it is
      addressed to and the room event it carries. */
  datatype Envelope = Envelope(roomHandle: nat, event: RoomEvent)

  /** One emitted notification: the event name and its arguments. Objects
      are passed as their state at the moment of emission; `about` is a
      participant lookup that may have found nothing. */
  datatype Notification =
    | ParticipantConnected(participant: Participant)
    | ParticipantDisconnected(participant: Participant)
    | LocalTrackPublished(publication: Publication, track: Option<Track>)
    | LocalTrackUnpublished(publication: Publication)
    | LocalTrackSubscribed(track: Option<Track>)
    | TrackPublished(publication: Publication, participant: Participant)
    | TrackUnpublished(publication: Publication, participant: Participant)
    | TrackSubscribed(subscribedTrack: Track, publication: Publication, participant: Participant)
    | TrackUnsubscribed(track: Option<Track>, publication: Publication, participant: Participant)
    | TrackSubscriptionFailed(participant: Participant, trackSid: string, error: string)
    | TrackMuted(participant: Participant, publication: Publication)
    | TrackUnmuted(participant: Participant, publication: Publication)
    | ActiveSpeakersChanged(speakers: seq<Participant>)
    | RoomMetadataChanged(oldMetadata: string, newMetadata: string)
    | ParticipantMetadataChanged(participant: Participant, oldMetadata: string, newMetadata: string)
    | ParticipantNameChanged(participant: Participant, oldName: string, newName: string)
    | ParticipantAttributesChanged(changed: map<string, string>, participant: Participant)
    | ConnectionQualityChanged(about: Option<Participant>, quality: nat)
    | TranscriptionReceived(segments: seq<TranscriptionSegment>, about: Option<Participant>, onPublication: Option<Publication>)
    | DataReceived(packet: DataPacket)
    | SipDtmfReceived(tone: SipDtmf)
    | E2eeStateChanged(about: Option<Participant>, e2eeState: nat)
    | ConnectionStateChanged(connectionState: ConnectionState)
    | Connected
    | Disconnected(reason: nat)
    | Reconnecting
    | Reconnected
}

=== FILE: registry.dfy ===
/** The participant registry: the map from identity to remote participant
    and the lookups the dispatch uses on it. */
module Registry {
  import opened Wrappers
  import opened Entities

  /** The remote participant stored under `identity`, if any (a dictionary
      `get` with a None default). */
  function RetrieveRemoteParticipant(remotes: map<string, Participant>, identity: string): (r: Option<Participant>)
    ensures r.Some? <==> identity in remotes
    ensures r.Some? ==> r.value == remotes[identity]
  {
    if identity in remotes then Some(remotes[identity]) else None
  }

  /** An identity names the local participant when it is non-empty and
      equal to the local participant's identity. */
  predicate IsLocalIdentity(local: Participant, identity: string) {
    identity != "" && identity == local.info.identity
  }

  /** The local participant for a non-empty identity that matches it;
      otherwise the remote participant with that identity, if any. */
  function RetrieveParticipant(local: Participant, remotes: map<string, Participant>, identity: string): (r: Option<Participant>)
    ensures identity != "" && identity == local.info.identity ==> r == Some(local)
    ensures (identity == "" || identity != local.info.identity) ==>
      (r.Some? <==> identity in remotes) && (r.Some? ==> r.value == remotes[identity])
    ensures r.None? <==> identity !in remotes && (identity == "" || identity != local.info.identity)
  {
    if IsLocalIdentity(local, identity) then Some(local) else RetrieveRemoteParticipant(remotes, identity)
  }

  /** Creating a remote participant fails when its identity is already
      registered; otherwise exactly that one key is added, holding a fresh
      participant with no publications, and every other entry is kept. */
  function CreateRemote(remotes: map<string, Participant>, info: ParticipantInfo): (r: Result<map<string, Participant>, Fault>)
    ensures r.Failure? <==> info.identity in remotes
    ensures r.Failure? ==> r.error == ParticipantExists(info.identity)
    ensures r.Success? ==> r.value.Keys == remotes.Keys + {info.identity}
    ensures r.Success? ==> r.value[info.identity].info == info && r.value[info.identity].publications == map[]
    ensures r.Success? ==> forall id :: id in remotes ==> r.value[id] == remotes[id]
  {
    if info.identity in remotes then Failure(ParticipantExists(info.identity))
    else Success(remotes[info.identity := NewParticipant(info)])
  }

  /** Removing a remote participant fails when the identity is absent;
      otherwise exactly that key goes and the removed participant is
      returned beside the remaining map. */
  function RemoveRemote(remotes: map<string, Participant>, identity: string): (r: Result<(map<string, Participant>, Participant), Fault>)
    ensures r.Failure? <==> identity !in remotes
    ensures r.Failure? ==> r.error == UnknownRemote(identity)
    ensures r.Success? ==> r.value.1 == remotes[identity]
    ensures r.Success? ==> r.value.0.Keys == remotes.Keys - {identity}
    ensures r.Success? ==> forall id :: id in r.value.0 ==> r.value.0[id] == remotes[id]
  {
    if identity !in remotes then Failure(UnknownRemote(identity))
    else Success((remotes - {identity}, remotes[identity]))
  }

  /** Under the registry invariant, a found participant carries the
      identity that was asked for, and a miss means that no remote
      participant carries it. */
  lemma RetrieveParticipantSound(local: Participant, remotes: map<string, Participant>, identity: string)
    requires KeyedByIdentity(remotes)
    ensures var r := RetrieveParticipant(local, remotes, identity);
      && (r.Some? ==> r.value.info.identity == identity)
      && (r.None? ==> forall id :: id in remotes ==> remotes[id].info.identity != identity)
  {
    var r := RetrieveParticipant(local, remotes, identity);
    if r.None? {
      forall id | id in remotes ensures remotes[id].info.identity != identity {
        assert remotes[id].info.identity == id;
      }
    }
  }
}

=== FILE: roster.dfy ===
/** The initial roster replay of connect: every participant listed in the
    connect response is registered, with its publications keyed by sid,
    before any room event is processed. */
module Roster {
  import opened Wrappers
  import opened Entities
  import opened Registry

  /** One participant of the connect response with its publications. */
  datatype RosterEntry = RosterEntry(participant: ParticipantInfo, publications: seq<PublicationInfo>)

  /** The engine's answer to the connect request. */
  datatype ConnectResponse =
    | ConnectFailed(error: string)
    | ConnectOk(handle: nat, info: RoomInfo, local: ParticipantInfo, participants: seq<RosterEntry>)

  /** A participant with the listed publications added in order, each under
      its own sid (a later one with the same sid replaces an earlier one). */
  function WithPublications(p: Participant, infos: seq<PublicationInfo>): Participant
    decreases |infos|
  {
    if infos == [] then p
    else WithPublications(p.(publications := p.publications[infos[0].sid := NewPublication(infos[0])]), infos[1..])
  }

  /** Adding publications keeps the participant's own info. */
  lemma {:induction false} WithPublicationsKeepsInfo(p: Participant, infos: seq<PublicationInfo>)
    ensures WithPublications(p, infos).info == p.info
    decreases |infos|
  {
    if infos != [] {
      WithPublicationsKeepsInfo(p.(publications := p.publications[infos[0].sid := NewPublication(infos[0])]), infos[1..]);
    }
  }

  /** The sids present afterwards are the earlier ones plus the listed ones. */
  lemma {:induction false} WithPublicationsKeys(p: Participant, infos: seq<PublicationInfo>)
    ensures WithPublications(p, infos).publications.Keys
         == p.publications.Keys + set i | 0 <= i < |infos| :: infos[i].sid
    decreases |infos|
  {
    if infos != [] {
      var q := p.(publications := p.publications[infos[0].sid := NewPublication(infos[0])]);
      WithPublicationsKeys(q, infos[1..]);
      var rest := set i | 0 <= i < |infos[1..]| :: infos[1..][i].sid;
      var all := set i | 0 <= i < |infos| :: infos[i].sid;
      forall sid | sid in all ensures sid in {infos[0].sid} + rest {
        var i :| 0 <= i < |infos| && infos[i].sid == sid;
        if i > 0 { assert infos[1..][i - 1].sid == sid; }
      }
      forall sid | sid in rest ensures sid in all {
        var i :| 0 <= i < |infos[1..]| && infos[1..][i].sid == sid;
        assert infos[i + 1].sid == sid;
      }
      assert all == {infos[0].sid} + rest;
    }
  }

  /** Every listed sid holds a fresh, unsubscribed publication without a
      track, stored under that sid; the one stored is built from the last
      listed entry with that sid. */
  lemma {:induction false} WithPublicationsFresh(p: Participant, infos: seq<PublicationInfo>)
    ensures forall i :: 0 <= i < |infos| ==>
      && infos[i].sid in WithPublications(p, infos).publications
      && var pub := WithPublications(p, infos).publications[infos[i].sid];
      && pub.info.sid == infos[i].sid && !pub.subscribed && pub.track.None?
    ensures forall i :: 0 <= i < |infos| && LastWithSid(infos, i) ==>
      WithPublications(p, infos).publications[infos[i].sid] == NewPublication(infos[i])
    decreases |infos|
  {
    if infos != [] {
      var q := p.(publications := p.publications[infos[0].sid := NewPublication(infos[0])]);
      var tail := infos[1..];
      WithPublicationsFresh(q, tail);
      WithPublicationsKeepsOthers(q, tail);
      forall i | 0 <= i < |infos|
        ensures && infos[i].sid in WithPublications(p, infos).publications
                && var pub := WithPublications(p, infos).publications[infos[i].sid];
                && pub.info.sid == infos[i].sid && !pub.subscribed && pub.track.None?
        ensures LastWithSid(infos, i) ==>
          WithPublications(p, infos).publications[infos[i].sid] == NewPublication(infos[i])
      {
        if i > 0 {
          assert tail[i - 1] == infos[i];
          if LastWithSid(infos, i) {
            forall j | i - 1 < j < |tail| ensures tail[j].sid != tail[i - 1].sid {
              assert tail[j] == infos[j + 1];
            }
            assert LastWithSid(tail, i - 1);
          }
        } else if LastWithSid(infos, 0) {
          forall j | 0 <= j < |tail| ensures tail[j].sid != infos[0].sid {
            assert tail[j] == infos[j + 1];
          }
        }
      }
    }
  }

  /** No later entry of `infos` repeats the sid of entry `i`. */
  ghost predicate LastWithSid(infos: seq<PublicationInfo>, i: int)
    requires 0 <= i < |infos|
  {
    forall j :: i < j < |infos| ==> infos[j].sid != infos[i].sid
  }

  /** A publication whose sid is not listed is kept as it was. */
  lemma {:induction false} WithPublicationsKeepsOthers(p: Participant, infos: seq<PublicationInfo>)
    ensures forall sid :: sid in p.publications ==>
      && sid in WithPublications(p, infos).publications
      && ((forall i :: 0 <= i < |infos| ==> infos[i].sid != sid) ==>
            WithPublications(p, infos).publications[sid] == p.publications[sid])
    decreases |infos|
  {
    if infos != [] {
      var q := p.(publications := p.publications[infos[0].sid := NewPublication(infos[0])]);
      WithPublicationsKeepsOthers(q, infos[1..]);
      assert WithPublications(p, infos) == WithPublications(q, infos[1..]);
      forall sid | sid in p.publications && (forall i :: 0 <= i < |infos| ==> infos[i].sid != sid)
        ensures sid in WithPublications(p, infos).publications
        ensures WithPublications(p, infos).publications[sid] == p.publications[sid]
      {
        forall i | 0 <= i < |infos[1..]| ensures infos[1..][i].sid != sid {
          assert infos[1..][i] == infos[i + 1];
        }
      }
    }
  }

  /** Where the roster replay stopped: the registry it built, and the
      fault that interrupted it, if any. */
  datatype RosterOutcome = RosterOutcome(remotes: map<string, Participant>, fault: Option<Fault>)

  /** The entry's participant, filled with its publications, stored under
      its identity. */
  function Register(remotes: map<string, Participant>, entry: RosterEntry): map<string, Participant> {
    remotes[entry.participant.identity := WithPublications(NewParticipant(entry.participant), entry.publications)]
  }

  /** The roster replay: each entry is created (raising on an identity
      already registered, which stops the replay) and then given its
      publications. */
  function ReplayRoster(remotes: map<string, Participant>, entries: seq<RosterEntry>): RosterOutcome
    decreases |entries|
  {
    if entries == [] then RosterOutcome(remotes, None)
    else
      var info := entries[0].participant;
      match CreateRemote(remotes, info)
      case Failure(f) => RosterOutcome(remotes, Some(f))
      case Success(m) => ReplayRoster(Register(m, entries[0]), entries[1..])
  }

  /** The identities listed in a roster. */
  function Identities(entries: seq<RosterEntry>): set<string> {
    set i | 0 <= i < |entries| :: entries[i].participant.identity
  }

  /** The listed identities are pairwise distinct and none is registered yet. */
  ghost predicate FreshAndDistinct(remotes: map<string, Participant>, entries: seq<RosterEntry>) {
    && (forall i :: 0 <= i < |entries| ==> entries[i].participant.identity !in remotes)
    && (forall i, j :: 0 <= i < j < |entries| ==> entries[i].participant.identity != entries[j].participant.identity)
  }

  /** Each publication is stored under its own sid, and so it stays. */
  lemma {:induction false} WithPublicationsKeyed(p: Participant, infos: seq<PublicationInfo>)
    requires KeyedBySid(p.publications)
    ensures KeyedBySid(WithPublications(p, infos).publications)
    decreases |infos|
  {
    if infos != [] {
      WithPublicationsKeyed(p.(publications := p.publications[infos[0].sid := NewPublication(infos[0])]), infos[1..]);
    }
  }

  /** The replay completes exactly when the listed identities are fresh and
      distinct; otherwise it stops with ParticipantExists naming one of the
      listed identities. */
  lemma {:induction false} ReplayRosterCompletes(remotes: map<string, Participant>, entries: seq<RosterEntry>)
    ensures ReplayRoster(remotes, entries).fault.None? <==> FreshAndDistinct(remotes, entries)
    ensures ReplayRoster(remotes, entries).fault.Some? ==>
      exists i :: 0 <= i < |entries| && ReplayRoster(remotes, entries).fault.value == ParticipantExists(entries[i].participant.identity)
    decreases |entries|
  {
    if entries != [] {
      if entries[0].participant.identity !in remotes {
        var m := Register(CreateRemote(remotes, entries[0].participant).value, entries[0]);
        ReplayRosterCompletes(m, entries[1..]);
        FreshAndDistinctStep(remotes, m, entries);
        if ReplayRoster(m, entries[1..]).fault.Some? {
          var i :| 0 <= i < |entries[1..]| && ReplayRoster(m, entries[1..]).fault.value == ParticipantExists(entries[1..][i].participant.identity);
          assert entries[1..][i] == entries[i + 1];
        }
      }
    }
  }

  /** The identities of a non-empty roster: its first entry's and the rest's. */
  lemma IdentitiesCons(entries: seq<RosterEntry>)
    requires |entries| > 0
    ensures Identities(entries) == {entries[0].participant.identity} + Identities(entries[1..])
  {
    var tail := entries[1..];
    forall id | id in Identities(entries) ensures id in {entries[0].participant.identity} + Identities(tail) {
      var i :| 0 <= i < |entries| && entries[i].participant.identity == id;
      if i > 0 { assert tail[i - 1].participant.identity == id; }
    }
    forall id | id in Identities(tail) ensures id in Identities(entries) {
      var i :| 0 <= i < |tail| && tail[i].participant.identity == id;
      assert entries[i + 1].participant.identity == id;
    }
  }

  /** A completed replay registers exactly the listed identities and keeps
      every participant registered before. */
  lemma {:induction false} ReplayRosterRegisters(remotes: map<string, Participant>, entries: seq<RosterEntry>)
    requires ReplayRoster(remotes, entries).fault.None?
    ensures ReplayRoster(remotes, entries).remotes.Keys == remotes.Keys + Identities(entries)
    ensures forall id :: id in remotes ==> ReplayRoster(remotes, entries).remotes[id] == remotes[id]
    decreases |entries|
  {
    if entries == [] {
      assert Identities(entries) == {};
    } else {
      var head := entries[0];
      var m := Register(CreateRemote(remotes, head.participant).value, head);
      ReplayRosterRegisters(m, entries[1..]);
      IdentitiesCons(entries);
    }
  }

  /** A completed replay stores each listed participant with its own info. */
  lemma {:induction false} ReplayRosterInfos(remotes: map<string, Participant>, entries: seq<RosterEntry>)
    requires ReplayRoster(remotes, entries).fault.None?
    ensures forall i :: 0 <= i < |entries| ==>
      && entries[i].participant.identity in ReplayRoster(remotes, entries).remotes
      && ReplayRoster(remotes, entries).remotes[entries[i].participant.identity].info == entries[i].participant
    decreases |entries|
  {
    if entries != [] {
      var head := entries[0];
      var tail := entries[1..];
      var m := Register(CreateRemote(remotes, head.participant).value, head);
      assert ReplayRoster(remotes, entries) == ReplayRoster(m, tail);
      ReplayRosterInfos(m, tail);
      ReplayRosterRegisters(m, tail);
      WithPublicationsKeepsInfo(NewParticipant(head.participant), head.publications);
      forall i | 0 <= i < |entries|
        ensures && entries[i].participant.identity in ReplayRoster(remotes, entries).remotes
                && ReplayRoster(remotes, entries).remotes[entries[i].participant.identity].info == entries[i].participant
      {
        if i > 0 { assert tail[i - 1] == entries[i]; }
      }
    }
  }

  /** A completed replay stores each listed participant with exactly its
      roster publications added to a fresh participant. */
  lemma {:induction false} ReplayRosterPublications(remotes: map<string, Participant>, entries: seq<RosterEntry>)
    requires ReplayRoster(remotes, entries).fault.None?
    ensures forall i :: 0 <= i < |entries| ==>
      && entries[i].participant.identity in ReplayRoster(remotes, entries).remotes
      && ReplayRoster(remotes, entries).remotes[entries[i].participant.identity]
         == WithPublications(NewParticipant(entries[i].participant), entries[i].publications)
    decreases |entries|
  {
    if entries != [] {
      var head := entries[0];
      var tail := entries[1..];
      var m := Register(CreateRemote(remotes, head.participant).value, head);
      assert ReplayRoster(remotes, entries) == ReplayRoster(m, tail);
      ReplayRosterPublications(m, tail);
      ReplayRosterRegisters(m, tail);
      forall i | 0 <= i < |entries|
        ensures && entries[i].participant.identity in ReplayRoster(remotes, entries).remotes
                && ReplayRoster(remotes, entries).remotes[entries[i].participant.identity]
                   == WithPublications(NewParticipant(entries[i].participant), entries[i].publications)
      {
        if i > 0 { assert tail[i - 1] == entries[i]; }
      }
    }
  }

  /** The replay keeps every participant under its identity and every
      publication under its sid, whether or not it completes. */
  lemma {:induction false} ReplayRosterKeepsKeyed(remotes: map<string, Participant>, entries: seq<RosterEntry>)
    requires KeyedByIdentity(remotes)
    ensures KeyedByIdentity(ReplayRoster(remotes, entries).remotes)
    decreases |entries|
  {
    if entries != [] && entries[0].participant.identity !in remotes {
      var head := entries[0];
      var m := Register(CreateRemote(remotes, head.participant).value, head);
      WithPublicationsKeyed(NewParticipant(head.participant), head.publications);
      WithPublicationsKeepsInfo(NewParticipant(head.participant), head.publications);
      ReplayRosterKeepsKeyed(m, entries[1..]);
    }
  }

  /** What connect relies on: the replay completes exactly when the listed
      identities are fresh and distinct, it then registers exactly them, and
      it keeps the registry invariant either way. */
  lemma ReplayRosterSummary(remotes: map<string, Participant>, entries: seq<RosterEntry>)
    ensures var outcome := ReplayRoster(remotes, entries);
      && (outcome.fault.None? <==> FreshAndDistinct(remotes, entries))
      && (outcome.fault.None? ==> outcome.remotes.Keys == remotes.Keys + Identities(entries))
      && (KeyedByIdentity(remotes) ==> KeyedByIdentity(outcome.remotes))
  {
    ReplayRosterCompletes(remotes, entries);
    if ReplayRoster(remotes, entries).fault.None? {
      ReplayRosterRegisters(remotes, entries);
    }
    if KeyedByIdentity(remotes) {
      ReplayRosterKeepsKeyed(remotes, entries);
    }
  }

  /** After registering the first entry, the rest is fresh and distinct
      over the new registry exactly when the whole roster was over the old. */
  lemma FreshAndDistinctStep(remotes: map<string, Participant>, m: map<string, Participant>, entries: seq<RosterEntry>)
    requires |entries| > 0 && entries[0].participant.identity !in remotes
    requires m.Keys == remotes.Keys + {entries[0].participant.identity}
    ensures FreshAndDistinct(m, entries[1..]) <==> FreshAndDistinct(remotes, entries)
  {
    var tail := entries[1..];
    if FreshAndDistinct(m, tail) {
      forall i, j | 0 <= i < j < |entries|
        ensures entries[i].participant.identity != entries[j].participant.identity
      {
        assert tail[j - 1] == entries[j];
        if i > 0 { assert tail[i - 1] == entries[i]; }
      }
      forall i | 0 <= i < |entries| ensures entries[i].participant.identity !in remotes {
        if i > 0 { assert tail[i - 1] == entries[i]; }
      }
    }
    if FreshAndDistinct(remotes, entries) {
      forall i | 0 <= i < |tail| ensures tail[i].participant.identity !in m {
        assert tail[i] == entries[i + 1];
      }
      forall i, j | 0 <= i < j < |tail|
        ensures tail[i].participant.identity != tail[j].participant.identity
      {
        assert tail[i] == entries[i + 1] && tail[j] == entries[j + 1];
      }
    }
  }
}

=== FILE: session.dfy ===
/** The session object itself: the fields the dispatch updates in place,
    the notification log its listeners see, and the connect, listen and
    disconnect operations, each proved against the pure model. */
module Session {
  import opened Wrappers
  import opened Entities
  import opened Events
  import opened Registry
  import opened Dispatch
  import opened DispatchLoop
  import opened Roster

  /** How disconnect returned: without doing anything because the session
      was not connected, after the listening task ended, with the task still
      waiting for its end-of-stream, or raising because connect never
      started a task. */
  datatype DisconnectOutcome = AlreadyDisconnected | Closed | StillWaiting | NoTask

  /** One event's effect on the mirror and on the notification log, as the
      pure model describes it: a success moves to its next state and logs
      its notification, a failure changes nothing. */
  ghost predicate StepTaken(step: Result<Step, Fault>, before: RoomState, log: seq<Notification>,
                            after: RoomState, log': seq<Notification>, r: Result<Option<Notification>, Fault>)
  {
    match step
    case Success(st) => after == st.next && log' == log + NoteLog(st.note) && r == Success(st.note)
    case Failure(f) => after == before && log' == log && r == Failure(f)
  }

  class Room {
    var handle: Option<nat>
    var info: RoomInfo
    var local: Participant
    var remotes: map<string, Participant>
    var connectionState: ConnectionState
    var firstSid: Option<string>
    /** Every notification emitted so far, in order. */
    var emitted: seq<Notification>
    /** Every envelope handed on to the secondary queue, in order. */
    var republished: seq<Envelope>
    /** Every fault the listening task caught and logged, in order. */
    var faults: seq<Fault>
    var taskStarted: bool
    var taskDone: bool

    /** The mirrored part of the session. */
    function State(): RoomState
      reads this
    {
      RoomState(handle, info, local, remotes, connectionState, firstSid)
    }

    /** The mirror together with the logs the listening task writes. */
    function Loop(): Progress
      reads this
    {
      Progress(State(), emitted, republished, faults, taskDone)
    }

    /** A fresh session: no handle, empty room info, no remote
        participants, disconnected, the first-sid future unresolved. The
        local participant is an empty placeholder until connect. */
    constructor ()
      ensures State() == RoomState(None, RoomInfo("", "", ""), NewParticipant(ParticipantInfo("", "", "", "", map[])),
                                   map[], ConnDisconnected, None)
      ensures !State().IsConnected() && State().Valid() && State().Sid() == None
      ensures emitted == [] && republished == [] && faults == []
      ensures !taskStarted && !taskDone
    {
      handle := None;
      info := RoomInfo("", "", "");
      local := NewParticipant(ParticipantInfo("", "", "", "", map[]));
      remotes := map[];
      connectionState := ConnDisconnected;
      firstSid := None;
      emitted := [];
      republished := [];
      faults := [];
      taskStarted := false;
      taskDone := false;
    }

    /** Hands a notification to the listeners. */
    method Notify(n: Notification)
      modifies this`emitted
      ensures emitted == old(emitted) + [n]
    {
      emitted := emitted + [n];
    }

    /** Registers a new remote participant; an identity already present
        raises and changes nothing. */
    method CreateRemoteParticipant(pinfo: ParticipantInfo) returns (r: Result<Participant, Fault>)
      modifies this`remotes
      ensures match CreateRemote(old(remotes), pinfo)
        case Failure(f) => r == Failure(f) && remotes == old(remotes)
        case Success(m) => remotes == m && r == Success(NewParticipant(pinfo))
    {
      if pinfo.identity in remotes {
        return Failure(ParticipantExists(pinfo.identity));
      }
      var participant := NewParticipant(pinfo);
      remotes := remotes[pinfo.identity := participant];
      return Success(participant);
    }

    /** Writes back a participant that the local-or-remote lookup found. */
    method StoreParticipant(identity: string, p: Participant)
      modifies this`local, this`remotes
      ensures State() == old(State()).Store(identity, p)
    {
      if IsLocalIdentity(local, identity) {
        local := p;
      } else {
        remotes := remotes[identity := p];
      }
    }

    /** The active speakers, looked up one by one in the order given. */
    method ResolveSpeakers(ids: seq<string>) returns (r: Result<seq<Participant>, Fault>)
      ensures r == Dispatch.ResolveSpeakers(State(), ids)
    {
      var speakers: seq<Participant> := [];
      var i := 0;
      while i < |ids|
        invariant 0 <= i <= |ids|
        invariant |speakers| == i
        invariant forall k :: 0 <= k < i ==> State().Resolve(ids[k]) == Some(speakers[k])
      {
        var participant := RetrieveParticipant(local, remotes, ids[i]);
        if participant.None? {
          r := Failure(ParticipantUnresolved(ids[i]));
          var spec := Dispatch.ResolveSpeakers(State(), ids);
          assert spec.Failure?;
          var j :| 0 <= j < |ids| && State().Resolve(ids[j]).None? && spec.error == ParticipantUnresolved(ids[j])
                   && forall k :: 0 <= k < j ==> State().Resolve(ids[k]).Some?;
          assert j == i;
          return;
        }
        speakers := speakers + [participant.value];
        i := i + 1;
      }
      assert Dispatch.ResolveSpeakers(State(), ids).value == speakers;
      r := Success(speakers);
    }

    /** participant_connected and participant_disconnected. */
    method OnMembership(e: RoomEvent) returns (r: Result<Option<Notification>, Fault>)
      requires e.ParticipantConnectedEv? || e.ParticipantDisconnectedEv?
      modifies this`remotes, this`emitted
      ensures StepTaken(Apply(old(State()), e), old(State()), old(emitted), State(), emitted, r)
    {
      if e.ParticipantConnectedEv? {
        var created := CreateRemoteParticipant(e.participant);
        if created.Failure? {
          return Failure(created.error);
        }
        Notify(ParticipantConnected(created.value));
        r := Success(Some(ParticipantConnected(created.value)));
      } else {
        var identity := e.identity;
        if identity !in remotes {
          return Failure(UnknownRemote(identity));
        }
        var removed := remotes[identity];
        remotes := remotes - {identity};
        Notify(ParticipantDisconnected(removed));
        r := Success(Some(ParticipantDisconnected(removed)));
      }
    }

    /** The events about the local participant's own publications. */
    method OnLocalTrack(e: RoomEvent) returns (r: Result<Option<Notification>, Fault>)
      requires e.LocalTrackPublishedEv? || e.LocalTrackUnpublishedEv? || e.LocalTrackSubscribedEv?
      modifies this`local, this`emitted
      ensures StepTaken(Apply(old(State()), e), old(State()), old(emitted), State(), emitted, r)
    {
      var sid := if e.LocalTrackPublishedEv? then e.trackSid
                 else if e.LocalTrackUnpublishedEv? then e.publicationSid
                 else e.trackSid;
      if sid !in local.publications {
        return Failure(UnknownPublication(sid));
      }
      var publication := local.publications[sid];
      var n;
      if e.LocalTrackPublishedEv? {
        n := LocalTrackPublished(publication, publication.track);
      } else if e.LocalTrackUnpublishedEv? {
        n := LocalTrackUnpublished(publication);
      } else {
        if publication.firstSubscription {
          return Failure(FutureAlreadyResolved);
        }
        local := local.(publications := local.publications[sid := publication.(firstSubscription := true)]);
        n := LocalTrackSubscribed(publication.track);
      }
      Notify(n);
      r := Success(Some(n));
    }

    /** track_published and track_unpublished on a remote participant. */
    method OnRemotePublication(e: RoomEvent) returns (r: Result<Option<Notification>, Fault>)
      requires e.TrackPublishedEv? || e.TrackUnpublishedEv?
      modifies this`remotes, this`emitted
      ensures StepTaken(Apply(old(State()), e), old(State()), old(emitted), State(), emitted, r)
    {
      if e.identity !in remotes {
        return Failure(UnknownRemote(e.identity));
      }
      var participant := remotes[e.identity];
      var n;
      if e.TrackPublishedEv? {
        var publication := NewPublication(e.publication);
        participant := participant.(publications := participant.publications[e.publication.sid := publication]);
        n := TrackPublished(publication, participant);
      } else {
        if e.publicationSid !in participant.publications {
          return Failure(UnknownPublication(e.publicationSid));
        }
        var publication := participant.publications[e.publicationSid];
        participant := participant.(publications := participant.publications - {e.publicationSid});
        n := TrackUnpublished(publication, participant);
      }
      remotes := remotes[e.identity := participant];
      Notify(n);
      r := Success(Some(n));
    }

    /** track_subscribed and track_unsubscribed on a remote publication. */
    method OnSubscription(e: RoomEvent) returns (r: Result<Option<Notification>, Fault>)
      requires e.TrackSubscribedEv? || e.TrackUnsubscribedEv?
      modifies this`remotes, this`emitted
      ensures StepTaken(Apply(old(State()), e), old(State()), old(emitted), State(), emitted, r)
    {
      var sid := if e.TrackSubscribedEv? then e.track.sid else e.trackSid;
      if e.identity !in remotes {
        return Failure(UnknownRemote(e.identity));
      }
      var participant := remotes[e.identity];
      if sid !in participant.publications {
        return Failure(UnknownPublication(sid));
      }
      var publication := participant.publications[sid];
      if e.TrackSubscribedEv? {
        publication := publication.(subscribed := true);
        var attached := TrackFor(e.track);
        if attached.Some? {
          publication := publication.(track := attached);
        }
        participant := participant.(publications := participant.publications[sid := publication]);
        remotes := remotes[e.identity := participant];
        if attached.Some? {
          var n := TrackSubscribed(attached.value, publication, participant);
          Notify(n);
          r := Success(Some(n));
        } else {
          r := Success(None);
        }
      } else {
        var track := publication.track;
        publication := publication.(track := None, subscribed := false);
        participant := participant.(publications := participant.publications[sid := publication]);
        remotes := remotes[e.identity := participant];
        var n := TrackUnsubscribed(track, publication, participant);
        Notify(n);
        r := Success(Some(n));
      }
    }

    /** track_muted and track_unmuted, on the local or a remote participant. */
    method OnMute(e: RoomEvent) returns (r: Result<Option<Notification>, Fault>)
      requires e.TrackMutedEv? || e.TrackUnmutedEv?
      modifies this`local, this`remotes, this`emitted
      ensures StepTaken(Apply(old(State()), e), old(State()), old(emitted), State(), emitted, r)
    {
      var muted := e.TrackMutedEv?;
      var found := RetrieveParticipant(local, remotes, e.identity);
      if found.None? {
        return Failure(ParticipantUnresolved(e.identity));
      }
      var participant := found.value;
      if e.trackSid !in participant.publications {
        return Failure(UnknownPublication(e.trackSid));
      }
      var publication := SetMuted(participant.publications[e.trackSid], muted);
      participant := participant.(publications := participant.publications[e.trackSid := publication]);
      StoreParticipant(e.identity, participant);
      var n := if muted then TrackMuted(participant, publication) else TrackUnmuted(participant, publication);
      Notify(n);
      r := Success(Some(n));
    }

    /** The metadata, name and attribute changes of a participant. */
    method OnParticipantInfo(e: RoomEvent) returns (r: Result<Option<Notification>, Fault>)
      requires e.ParticipantMetadataChangedEv? || e.ParticipantNameChangedEv? || e.ParticipantAttributesChangedEv?
      modifies this`local, this`remotes, this`emitted
      ensures StepTaken(Apply(old(State()), e), old(State()), old(emitted), State(), emitted, r)
    {
      var found := RetrieveParticipant(local, remotes, e.identity);
      if found.None? {
        return Failure(ParticipantUnresolved(e.identity));
      }
      var participant := found.value;
      var n;
      if e.ParticipantMetadataChangedEv? {
        var oldMetadata := participant.info.metadata;
        participant := participant.(info := participant.info.(metadata := e.metadata));
        n := ParticipantMetadataChanged(participant, oldMetadata, participant.info.metadata);
      } else if e.ParticipantNameChangedEv? {
        var oldName := participant.info.name;
        participant := participant.(info := participant.info.(name := e.name));
        n := ParticipantNameChanged(participant, oldName, participant.info.name);
      } else {
        participant := participant.(info := participant.info.(attributes := map[] + e.attributes));
        n := ParticipantAttributesChanged(e.changed, participant);
      }
      StoreParticipant(e.identity, participant);
      Notify(n);
      r := Success(Some(n));
    }

    /** The room's own metadata and sid. */
    method OnRoomInfo(e: RoomEvent) returns (r: Result<Option<Notification>, Fault>)
      requires e.RoomMetadataChangedEv? || e.RoomSidChangedEv?
      modifies this`info, this`firstSid, this`emitted
      ensures StepTaken(Apply(old(State()), e), old(State()), old(emitted), State(), emitted, r)
    {
      if e.RoomMetadataChangedEv? {
        var oldMetadata := info.metadata;
        info := info.(metadata := e.metadata);
        var n := RoomMetadataChanged(oldMetadata, info.metadata);
        Notify(n);
        r := Success(Some(n));
      } else {
        if info.sid == "" {
          if firstSid.Some? {
            return Failure(FutureAlreadyResolved);
          }
          firstSid := Some(e.sid);
        }
        info := info.(sid := e.sid);
        r := Success(None);
      }
    }

    /** A failed subscription and the active speakers: both look their
        participants up and raise when one is missing. */
    method OnParticipantNotice(e: RoomEvent) returns (r: Result<Option<Notification>, Fault>)
      requires e.TrackSubscriptionFailedEv? || e.ActiveSpeakersChangedEv?
      modifies this`emitted
      ensures StepTaken(Apply(old(State()), e), old(State()), old(emitted), State(), emitted, r)
    {
      var n: Notification;
      if e.TrackSubscriptionFailedEv? {
        if e.identity !in remotes {
          return Failure(UnknownRemote(e.identity));
        }
        n := TrackSubscriptionFailed(remotes[e.identity], e.trackSid, e.error);
      } else {
        var speakers := ResolveSpeakers(e.identities);
        if speakers.Failure? {
          return Failure(speakers.error);
        }
        n := ActiveSpeakersChanged(speakers.value);
      }
      Notify(n);
      r := Success(Some(n));
    }

    /** Connection quality, a transcription, a data packet and an E2EE state
        change: the participant lookup may find nothing, and nothing raises. */
    method OnParticipantReport(e: RoomEvent) returns (r: Result<Option<Notification>, Fault>)
      requires e.ConnectionQualityChangedEv? || e.TranscriptionReceivedEv? || e.DataPacketReceivedEv? || e.E2eeStateChangedEv?
      modifies this`emitted
      ensures StepTaken(Apply(old(State()), e), old(State()), old(emitted), State(), emitted, r)
    {
      var n: Notification;
      if e.ConnectionQualityChangedEv? {
        n := ConnectionQualityChanged(RetrieveParticipant(local, remotes, e.identity), e.quality);
      } else if e.TranscriptionReceivedEv? {
        var part := RetrieveParticipant(local, remotes, e.identity);
        var pub := None;
        if part.Some? && e.trackSid in part.value.publications {
          pub := Some(part.value.publications[e.trackSid]);
        }
        n := TranscriptionReceived(e.segments, part, pub);
      } else if e.DataPacketReceivedEv? {
        var sender := RetrieveRemoteParticipant(remotes, e.identity);
        if e.value.UserData? {
          n := DataReceived(DataPacket(e.value.data, e.kind, sender, Some(e.value.topic)));
        } else if e.value.SipDtmfData? {
          n := SipDtmfReceived(SipDtmf(e.value.code, e.value.digit, sender));
        } else {
          return Success(None);
        }
      } else {
        n := E2eeStateChanged(RetrieveParticipant(local, remotes, e.identity), e.e2eeState);
      }
      Notify(n);
      r := Success(Some(n));
    }

    /** connection_state_changed: the only event that moves the connection
        state. */
    method OnConnectionState(e: RoomEvent) returns (r: Result<Option<Notification>, Fault>)
      requires e.ConnectionStateChangedEv?
      modifies this`connectionState, this`emitted
      ensures StepTaken(Apply(old(State()), e), old(State()), old(emitted), State(), emitted, r)
    {
      connectionState := e.connectionState;
      Notify(ConnectionStateChanged(e.connectionState));
      r := Success(Some(ConnectionStateChanged(e.connectionState)));
    }

    /** The session lifecycle events, and the messages the dispatch has no
        branch for. */
    method OnLifecycle(e: RoomEvent) returns (r: Result<Option<Notification>, Fault>)
      requires || e.ConnectedEv? || e.DisconnectedEv? || e.ReconnectingEv? || e.ReconnectedEv?
               || e.Eos? || e.Unhandled?
      modifies this`emitted
      ensures StepTaken(Apply(old(State()), e), old(State()), old(emitted), State(), emitted, r)
    {
      var n: Notification;
      if e.ConnectedEv? {
        n := Connected;
      } else if e.DisconnectedEv? {
        n := Disconnected(e.reason);
      } else if e.ReconnectingEv? {
        n := Reconnecting;
      } else if e.ReconnectedEv? {
        n := Reconnected;
      } else {
        return Success(None);
      }
      Notify(n);
      r := Success(Some(n));
    }

    /** One room event applied in place: the mirror and the notification log
        move exactly as the pure model says, and an event that raises leaves
        both untouched. */
    method ApplyEvent(e: RoomEvent) returns (r: Result<Option<Notification>, Fault>)
      modifies this
      ensures StepTaken(Apply(old(State()), e), old(State()), old(emitted), State(), emitted, r)
      ensures handle == old(handle) && republished == old(republished) && faults == old(faults)
      ensures taskStarted == old(taskStarted) && taskDone == old(taskDone)
    {
      if e.ParticipantConnectedEv? || e.ParticipantDisconnectedEv? {
        r := OnMembership(e);
      } else if e.LocalTrackPublishedEv? || e.LocalTrackUnpublishedEv? || e.LocalTrackSubscribedEv? {
        r := OnLocalTrack(e);
      } else if e.TrackPublishedEv? || e.TrackUnpublishedEv? {
        r := OnRemotePublication(e);
      } else if e.TrackSubscribedEv? || e.TrackUnsubscribedEv? {
        r := OnSubscription(e);
      } else if e.TrackMutedEv? || e.TrackUnmutedEv? {
        r := OnMute(e);
      } else if e.RoomMetadataChangedEv? || e.RoomSidChangedEv? {
        r := OnRoomInfo(e);
      } else if e.ParticipantMetadataChangedEv? || e.ParticipantNameChangedEv? || e.ParticipantAttributesChangedEv? {
        r := OnParticipantInfo(e);
      } else if e.TrackSubscriptionFailedEv? || e.ActiveSpeakersChangedEv? {
        r := OnParticipantNotice(e);
      } else if e.ConnectionQualityChangedEv? || e.TranscriptionReceivedEv? || e.DataPacketReceivedEv? || e.E2eeStateChangedEv? {
        r := OnParticipantReport(e);
      } else if e.ConnectionStateChangedEv? {
        r := OnConnectionState(e);
      } else {
        r := OnLifecycle(e);
      }
    }

    /** A participant given the publications of its roster entry, in order. */
    static method FillPublications(p: Participant, infos: seq<PublicationInfo>) returns (q: Participant)
      ensures q == WithPublications(p, infos)
    {
      q := p;
      var j := 0;
      assert infos[j..] == infos;
      while j < |infos|
        invariant 0 <= j <= |infos|
        invariant WithPublications(q, infos[j..]) == WithPublications(p, infos)
      {
        var publication := NewPublication(infos[j]);
        assert infos[j..][1..] == infos[j + 1..];
        q := q.(publications := q.publications[publication.info.sid := publication]);
        j := j + 1;
      }
    }

    /** Registers every roster entry in order, stopping at the first
        identity already present. */
    method AddRoster(entries: seq<RosterEntry>) returns (fault: Option<Fault>)
      modifies this`remotes
      ensures RosterOutcome(remotes, fault) == ReplayRoster(old(remotes), entries)
    {
      var i := 0;
      assert entries[i..] == entries;
      while i < |entries|
        invariant 0 <= i <= |entries|
        invariant ReplayRoster(remotes, entries[i..]) == ReplayRoster(old(remotes), entries)
      {
        var entry := entries[i];
        assert entries[i..][0] == entry && entries[i..][1..] == entries[i + 1..];
        var created := CreateRemoteParticipant(entry.participant);
        if created.Failure? {
          return Some(created.error);
        }
        var participant := FillPublications(created.value, entry.publications);
        remotes := remotes[entry.participant.identity := participant];
        i := i + 1;
      }
      return None;
    }

    /** connect: a failed response raises ConnectError and changes nothing;
        otherwise the handle, room info, connection state and local
        participant are set, the roster is replayed, and the listening task
        is started only if the replay completes. */
    method Connect(resp: ConnectResponse) returns (r: Result<(), Fault>)
      modifies this
      ensures emitted == old(emitted) && republished == old(republished) && faults == old(faults)
      ensures firstSid == old(firstSid)
      ensures resp.ConnectFailed? ==>
        && r == Failure(ConnectError(resp.error))
        && State() == old(State()) && taskStarted == old(taskStarted) && taskDone == old(taskDone)
      ensures resp.ConnectOk? ==>
        var outcome := ReplayRoster(old(remotes), resp.participants);
        && handle == Some(resp.handle) && info == resp.info && connectionState == ConnConnected
        && local == NewParticipant(resp.local)
        && remotes == outcome.remotes
        && (r.Success? <==> outcome.fault.None?)
        && (outcome.fault.Some? ==> r == Failure(outcome.fault.value))
        && taskStarted == (r.Success? || old(taskStarted))
        && (r.Success? ==> !taskDone)
        && (r.Failure? ==> taskDone == old(taskDone))
    {
      if resp.ConnectFailed? {
        return Failure(ConnectError(resp.error));
      }
      handle := Some(resp.handle);
      info := resp.info;
      connectionState := ConnConnected;
      local := NewParticipant(resp.local);
      var fault := AddRoster(resp.participants);
      if fault.Some? {
        return Failure(fault.value);
      }
      taskStarted := true;
      taskDone := false;
      r := Success(());
    }

    /** The listening task over the envelopes delivered to it: it runs the
        loop policy until the stream is exhausted or this room's
        end-of-stream arrives. */
    method Listen(events: seq<Envelope>)
      requires handle.Some? && taskStarted
      modifies this
      ensures Loop() == Run(old(Loop()), old(handle.value), events)
      ensures handle == old(handle) && taskStarted
      ensures old(State().Valid()) ==> State().Valid()
    {
      var h := handle.value;
      var i := 0;
      assert events[i..] == events;
      while i < |events| && !taskDone
        invariant 0 <= i <= |events|
        invariant handle == Some(h) && taskStarted
        invariant Run(Loop(), h, events[i..]) == Run(old(Loop()), h, events)
      {
        var env := events[i];
        assert events[i..][0] == env && events[i..][1..] == events[i + 1..];
        ghost var before := Loop();
        if env.roomHandle == h && env.event.Eos? {
          taskDone := true;
        } else {
          if env.roomHandle == h {
            var result := ApplyEvent(env.event);
            if result.Failure? {
              faults := faults + [result.error];
            }
          }
          republished := republished + [env];
        }
        assert Loop() == Feed(before, h, env);
        i := i + 1;
      }
      if taskDone {
        RunFinished(Loop(), h, events[i..]);
      } else {
        assert events[i..] == [];
      }
      if old(State().Valid()) {
        RunPreservesValid(old(Loop()), h, events);
      }
    }

    /** disconnect: nothing happens when the session is not connected;
        otherwise the listening task is awaited over the envelopes still
        delivered, and a session whose connect never started the task
        raises. */
    method Disconnect(events: seq<Envelope>) returns (outcome: DisconnectOutcome)
      modifies this
      ensures !old(State().IsConnected()) ==> outcome == AlreadyDisconnected && Loop() == old(Loop())
      ensures old(State().IsConnected()) && !old(taskStarted) ==> outcome == NoTask && Loop() == old(Loop())
      ensures old(State().IsConnected()) && old(taskStarted) ==>
        && Loop() == Run(old(Loop()), old(handle.value), events)
        && (outcome == Closed <==> taskDone)
        && (outcome == StillWaiting <==> !taskDone)
      ensures handle == old(handle) && taskStarted == old(taskStarted)
    {
      if !State().IsConnected() {
        return AlreadyDisconnected;
      }
      if !taskStarted {
        return NoTask;
      }
      Listen(events);
      outcome := if taskDone then Closed else StillWaiting;
    }
  }
}

=== FILE: wrappers.dfy ===
/** Option and Result, used for the lookups that may miss and for the
    operations that raise in the session mirror. */
module Wrappers {

  datatype Option<+T> = None | Some(value: T)

  datatype Result<+R, +E> = Success(value: R) | Failure(error: E)
}
